=== FILE: README.md ===
# Google Maps reviews harvester, modelled in Dafny

This project models the review-harvesting core of the Google Maps reviews
scraper (`main.py`): the date normaliser `parse_date`, the per-card review
extraction, the scroll-and-harvest loop, the final sort and cut of the
harvest, and the parsing of the organisation card (`parse_card_data`).

The browser is abstracted away:

- A rendered review card is a `Node`. Each of its DOM reads (the date, the
  author, the rating's aria-label, the text and the owner's response) is
  either present or absent.
- The page is a script of `Snapshot`s. The `k`-th scroll cycle sees the
  `k`-th snapshot, and the last snapshot stays on screen once the script
  runs out. A `PageFailed` snapshot stands for any error raised outside the
  per-card `try`. The loop then ends with what it holds, and that list is
  returned unsorted, with its dates. A failure before the loop (the reviews
  button or the container not appearing) is a first snapshot `PageFailed`:
  it returns the empty list.
- The clock is a parameter `now`: an integer count of seconds since
  0001-01-01 00:00:00, the first instant Python's `datetime` can hold.

Modules, one per file:

- `PyText` (`pytext.dfy`): the Python string operations the program
  relies on. These are `in` on strings, `split()` and `split(sep)`,
  `str.isdigit` filtering, `replace`, and what `int()` and `float()` accept.
- `Calendar` (`calendar.dfy`): the proleptic Gregorian calendar of
  `datetime`, and `strptime(text, "%d.%m.%Y")`.
- `DateNormalizer` (`date_normalizer.dfy`): `parse_date`. Its outcome is
  one of three: a timestamp, `None` (`Unresolved`), or an exception
  (`Raised`). The caller catches the exception for the current card.
- `ReviewExtractor` (`review_extractor.dfy`): reading one card, and reading
  a run of cards where one card's failure does not affect the others.
- `HarvestLoop` (`harvest_loop.dfy`): the while loop.
  - `Run` is its reference definition: a recursive function with the
    lexicographic measure (reviews still wanted, stalls still allowed).
  - `HarvestReviews` is the imperative loop, proved equal to `Run`.
  - The card reader is a parameter. The program's reader is
    `ReaderAt(now)`.
- `Finalizer` (`finalizer.dfy`): the stable newest-first sort, the cut to
  200, dropping `parsed_date`, and the whole `parse_reviews_data` result.
- `CardData` (`card_data.dfy`): the four card fields, each guarded on its own.

Behaviours of the code worth knowing:

- A rating is whatever integer leads the aria-label. Nothing clamps it to
  0–5 (`ReadRatingShown`).
- A keyword date whose count is not an integer ("a day ago") raises. It is
  not left unresolved. Either way the card is skipped (`WordCountRaises`).
- Fields are not all guarded one by one.
  - A card whose rating label is blank loses the whole review
    (`BlankRatingFails`). So does a label whose first word is not an
    integer, such as "four stars" (`UnparsedRatingFails`, `WordRatingFails`).
  - A card with no date element is never kept (`MissingDateDropped`).
- The 200 cap is checked only between cycles. One cycle can harvest more,
  and only the final cut brings the list back to 200 (`Overshoot`).
- The ratings-count segment stops at the next ")" or at a second "(",
  because it is the first piece of `split(')')` of the first piece of
  what follows the first "(" (`RatingsSegmentStops`).
- Deduplication is by position. Each cycle reads the cards from index
  `len(reviews)` on. When a card is skipped, a later cycle reads an already
  harvested card again (`DuplicateQuirk`).

## Model

| member | source | states |
|---|---|---|
| PyText.ContainsIff | main.py:223-234 | `t in s` holds exactly when `t` occurs at some index of `s` |
| PyText.FirstToken | main.py:168 | `s.split()[0]`: absent exactly when `s` is all whitespace (IndexError); otherwise the maximal non-space run after the leading whitespace |
| PyText.FirstTokenUnique | main.py:226 | any non-space word preceded only by whitespace and followed by whitespace or the end is the first token |
| PyText.ParseIntAccepts | main.py:226 | whatever `int()` accepts holds a digit and no inner whitespace |
| PyText.ParseIntShowInt | main.py:168 | `int(str(k)) == k` for every integer `k`, negative ones included |
| PyText.DigitsPresent | main.py:99 | the digit filter is non-empty exactly when the text holds a digit |
| PyText.DigitsOfConcat | main.py:99 | filtering digits distributes over concatenation |
| PyText.SplitJoin | main.py:107 | `split(sep)` inverts joining pieces that hold no `sep` |
| PyText.JoinSplit | main.py:107 | joining the pieces of `split(sep)` with `sep` gives back the text |
| PyText.StripUntrimmed | main.py:91 | `strip()` leaves text unchanged when it neither starts nor ends with whitespace |
| Calendar.Midnight | main.py:239 | the midnight of a valid date is a representable timestamp, a whole number of days |
| Calendar.MidnightOrder | main.py:239 | later calendar dates have strictly later midnights |
| Calendar.MidnightInjective | main.py:239 | distinct valid dates have distinct midnights |
| Calendar.ParseDayMonthYear | main.py:238-242 | what `strptime(s, "%d.%m.%Y")` returns is a representable midnight of a valid date |
| Calendar.ParseFormatDate | main.py:239 | every valid date written as zero-padded dd.mm.yyyy text parses back to its own midnight |
| Calendar.ParsePadded | main.py:239 | zero-padded fields parse exactly when they form a valid date |
| Calendar.ParseOneDigitDayMonth | main.py:239 | one-digit days and months such as "5.3.2023" are accepted |
| Calendar.ParseLeapDay | main.py:239 | "29.02.YYYY" is accepted exactly in leap years from year 1 on |
| Calendar.DayFieldText | main.py:239 | `%d` accepts only two digits, or for days below 10 one digit or a space and one digit, and reads the day they write |
| Calendar.MonthFieldText | main.py:239 | `%m` accepts only two digits, or for months below 10 one digit, and reads the month they write |
| Calendar.YearFieldText | main.py:239 | `%Y` accepts only the four-digit text of the year it reads |
| Calendar.ParseAccepted | main.py:238-242 | every accepted text is a day text, a dot, a month text, a dot and four year digits of a valid date, and reads as that date's midnight; anything else is rejected |
| Calendar.ParseWritten | main.py:239 | every text of that shape naming a valid date is accepted as that date's midnight |
| DateNormalizer.GoBack | main.py:227-236 | subtracting a timedelta resolves exactly when the day count is within `timedelta`'s range and the result stays representable; the result lies that many days before `now` |
| DateNormalizer.ParseDate | main.py:221-242 | minutes/hours give `now`; only a keyword rule raises, and a day, week, month or year keyword whose first word is not an integer always raises; `None` exactly when there is no keyword and `strptime` fails; a keyword-free text resolves to exactly what `strptime` returns |
| DateNormalizer.RelativeNotAfterNow | main.py:223-236 | a relative date with a non-negative count is never after `now` |
| DateNormalizer.RelativeMonotone | main.py:223-236 | for one unit, a larger count never gives a later date, and for days/weeks/months/years a strictly earlier one |
| DateNormalizer.AbsoluteIgnoresNow | main.py:237-242 | keyword-free text parses the same whatever the clock says |
| DateNormalizer.AbsoluteIsMidnight | main.py:238-239 | "DD.MM.YYYY" of a valid date resolves to that date's midnight, regardless of `now` |
| DateNormalizer.UnitAfterNumber | main.py:223-236 | the rule that fires for "N words" is the one that fires for the words alone |
| DateNormalizer.LeadingNumber | main.py:226 | the count read from "N words" is N |
| DateNormalizer.CountedDate | main.py:225-236 | "N words" with a day/week/month/year keyword resolves to `now` minus N times 1/7/30/365 days whenever that stays in range |
| DateNormalizer.DaysWords | main.py:223-225 | text holding "day" and no 'm' or 'h' fires the days rule |
| DateNormalizer.MonthsWords | main.py:223-231 | text holding "month" and none of 'i', 'u', 'd', 'w' fires the months rule, not the hour rule |
| DateNormalizer.DaysAgoWords | main.py:225 | " days ago" fires the days rule |
| DateNormalizer.MonthsAgoWords | main.py:231 | " months ago" fires the months rule |
| DateNormalizer.NoKeywordNoDotUnresolved | main.py:237-242 | text with no keyword letter and no '.' is unresolved |
| DateNormalizer.SingularMinuteUnresolved | main.py:223 | "1 minute ago" matches no keyword and is unresolved |
| DateNormalizer.PlaceholderUnresolved | main.py:157 | the missing-date placeholder is unresolved |
| DateNormalizer.WordCountRaises | main.py:225-226 | worked example: "a day ago" raises, because `int("a")` fails |
| ReviewExtractor.ReadRating | main.py:165-170 | no label or an empty label gives 0; a blank label raises; otherwise the rating is `int()` of the label's first word, absent where `int()` raises |
| ReviewExtractor.ReadRatingShown | main.py:168 | a label "K words" gives rating K for every integer K, unclamped |
| ReviewExtractor.DateText | main.py:156-157 | the date element's text, or the placeholder when it is missing |
| ReviewExtractor.ExtractNode | main.py:155-192 | a card is dropped exactly when its date is unresolved; it is kept exactly when its date resolves and its rating reads, with each missing field replaced by its placeholder |
| ReviewExtractor.MissingDateDropped | main.py:156-161 | a card without a date element is never kept |
| ReviewExtractor.BlankRatingFails | main.py:165-168 | a resolved card with a blank rating label is lost to the error handler |
| ReviewExtractor.UnparsedRatingFails | main.py:165-168 | a resolved card whose label's first word is not an integer is lost to the error handler |
| ReviewExtractor.WordRatingFails | main.py:168 | the label "four stars" makes a resolved card fail |
| ReviewExtractor.Collect | main.py:154-192 | one cycle's cards yield at most one review each, each from a card that was kept |
| ReviewExtractor.CollectConcat | main.py:154 | reading two runs of cards is reading one after the other |
| ReviewExtractor.NodeIsolation | main.py:191-192 | a card that is dropped or fails is skipped, and the cards after it are still read |
| ReviewExtractor.CollectNone | main.py:161 | cards none of which is kept add nothing |
| ReviewExtractor.CollectAll | main.py:154-188 | when every card is kept, the harvest is one review per card, in page order |
| HarvestLoop.Cycle | main.py:153-192 | a cycle only appends, and never beyond the rendered card count |
| HarvestLoop.Run | main.py:147-198 | the loop keeps what it had and ends only at 200 reviews or 80 stalls; the stall count never exceeds 80 |
| HarvestLoop.Harvest | main.py:144-199 | a completed harvest has reached 200 reviews or exactly 80 stalls in a row |
| HarvestLoop.ReadCycle | main.py:153-192 | the for loop appends exactly what `Cycle` does, and its flag is set exactly when it appended something |
| HarvestLoop.HarvestReviews | main.py:144-199 | the while loop computes exactly the reference harvest `Harvest` |
| HarvestLoop.RunStep | main.py:194-198 | a cycle that appends nothing counts a stall; one that appends resets the count |
| HarvestLoop.RunNext | main.py:194-198 | the stall count after a cycle is 0 exactly when the cycle found something |
| HarvestLoop.CaughtUpStalls | main.py:194-196 | once no snapshot renders past the harvested count, the loop ends after the remaining stalls with what it holds |
| HarvestLoop.NothingResolvesStalls | main.py:147-198 | when no card is ever kept and the page never fails, the loop ends with nothing after the remaining stalls |
| HarvestLoop.PureStall | main.py:144-199 | a page of which no card is kept gives an empty harvest after exactly 80 cycles |
| HarvestLoop.RunBounded | main.py:154 | the harvest never holds more reviews than the widest snapshot has cards |
| HarvestLoop.Overshoot | main.py:147 | a first snapshot of 200 or more kept cards is harvested whole, so the cap is overshot |
| HarvestLoop.CycleExtends | main.py:154 | a cycle over an extension of the cards already harvested reads exactly the new ones |
| HarvestLoop.DedupStep | main.py:154 | with growing, fully kept snapshots, one cycle keeps one review per rendered card |
| HarvestLoop.RunDedup | main.py:147-198 | with growing, fully kept snapshots, the loop ends with one review per card of the last snapshot read |
| HarvestLoop.HarvestDedup | main.py:144-199 | with growing, fully kept snapshots, no card is read twice |
| HarvestLoop.DuplicateQuirk | main.py:154 | a skipped card shifts the positional window back, so snapshots [u, a] then [u, a, b] harvest a twice |
| Finalizer.Insert | main.py:201 | inserting adds exactly one entry |
| Finalizer.InsertSorted | main.py:201 | inserting into a newest-first list keeps it newest first |
| Finalizer.SortByDate | main.py:201 | the sort is a newest-first permutation of the harvest |
| Finalizer.InsertStable | main.py:201 | insertion puts an entry ahead of the others with its date |
| Finalizer.SortStable | main.py:201 | the entries of each date keep their harvest order |
| Finalizer.SortedUnique | main.py:201 | a newest-first list is determined by its entries of each date, in order |
| Finalizer.SortCharacterized | main.py:201 | any newest-first arrangement that keeps each date's harvest order is the sort's result |
| Finalizer.StripDates | main.py:204-206 | dropping `parsed_date` keeps each review in place |
| Finalizer.Finalize | main.py:200-206 | the result has min(n, 200) reviews, each taken from the harvest |
| Finalizer.FinalizeCharacterized | main.py:200-206 | the result is the stable newest-first arrangement cut to 200, without dates; nothing cut is newer than anything kept |
| Finalizer.ParseReviewsData | main.py:124-219 | a completed harvest returns `Finalize` of the harvest, so at most 200 reviews; an escaped error returns the harvest as it stood |
| Finalizer.NoDatesNoReviews | main.py:156-161 | a page whose cards have no date element yields no reviews |
| CardData.Rating | main.py:89-94 | the rating is present exactly when `float()` accepts the text with commas turned into points; it is that text: every comma becomes a point and every other character stays |
| CardData.CountOf | main.py:97-99 | the count is present exactly when the text has a digit, and is the value of its digits |
| CardData.RatingsSegment | main.py:107 | the segment is absent exactly when there is no "(" |
| CardData.RatingsCount | main.py:104-111 | no "(" means no ratings count; otherwise the count is the digits of the bracketed segment, never negative |
| CardData.ParseCard | main.py:79-113 | each field comes from its own element alone, and is absent when that element is missing |
| CardData.CardFieldsIndependent | main.py:79-113 | cards that agree on one element's text agree on that field, whatever the other elements hold |
| CardData.CardFieldAbsent | main.py:79-113 | a field is absent exactly when its element is missing or its text does not parse |
| CardData.DecimalCommaRating | main.py:91 | "A,B" is accepted as the rating "A.B" |
| CardData.FloatText | main.py:91 | "A.B" with digit runs A and B is a float literal |
| CardData.CountOfShown | main.py:99 | digit-free words around a number N read as N |
| CardData.CountOfJoinsDigits | main.py:99 | separators between digit groups are ignored, so "1 234" counts as 1234 |
| CardData.NoDigitsFilter | main.py:99 | text without digits filters to nothing |
| CardData.RatingsSegmentStops | main.py:107 | the segment runs from the first "(" to the next ")" or "(" or the end |
| CardData.RatingsCountShown | main.py:107 | "(N)" after text without "(" gives N ratings |

## Left out

- Browser work (Playwright) is left out: navigation, search, clicks, waits, timeouts, `wait_and_interact`, scrolling and the screenshot. Their effect is the snapshot script and `PageFailed`.
- `find_element_by_text`, `parse_reviews`, `run_parser`, configuration, JSON output, scheduling and logging are left out: they are I/O around the core.
- Finalizer.SortStable: the clock is read once per harvest, as `now`. The program calls `datetime.now()` at every `parse_date` call (main.py:222), and Playwright awaits separate those calls. So relative dates in one run drift later as the run goes on. Take two cards harvested A then B, both reading "2 weeks ago". The program gives B the later `parsed_date`, so the descending sort returns [B, A]. That same ordering decides which cards survive the cut to 200. The model gives both the same date, so Finalizer.SortStable keeps them in harvest order [A, B]. The model's order among equal relative dates is therefore not the program's.
- Sub-second precision is left out. Only whole days are ever subtracted, so the range checks are the same on whole seconds.
- CardData.Rating: the rating is kept as its normalised text; converting it to a floating-point number is not modelled.
- PyText.IsDigit: `str.isdigit` is modelled on the ASCII digits only. Other Unicode digit characters are not treated as digits.
- PyText.ParseInt: `int()` is modelled on text without surrounding whitespace: an optional sign, then ASCII digits with single underscores between them. This is all the program passes it, since its inputs are `split()` tokens and filtered digits. Non-ASCII digits are not accepted. The limit of 4300 digits that Python 3.11 and later enforce in `int()` is not modelled. So ReviewExtractor.ReadRatingShown ("every integer K") and the value CardData.CountOf returns differ from the program for numbers longer than that, where Python raises ValueError.
- Calendar.ParseDayMonthYear: the `\d` in the patterns of `%d` and `%Y` (main.py:239) also matches non-ASCII decimal digits, such as Arabic-Indic ones. The model accepts only ASCII digits and treats such dates as unresolved.
- PyText.IsFloatText: `float()` acceptance covers decimal literals with an optional exponent and underscores between digits, and "inf", "infinity" and "nan" in any ASCII case. Non-ASCII digits are not modelled.
- Playwright's per-card query errors are not modelled separately: any error inside the per-card `try` is the `Failed` outcome, and only `ReadRating` and `ParseDate` produce one.
- Snapshot contents are given, not derived from scroll positions. Whether the page re-orders cards is a property of the script, and the dedup results assume growing snapshots.

=== FILE: calendar.dfy ===
/**
 * The proleptic Gregorian calendar of Python's `datetime`, and the strict
 * `datetime.strptime(text, "%d.%m.%Y")` parse of an absolute review date.
 *
 * A timestamp is an integer count of seconds since 0001-01-01 00:00:00, the
 * first instant `datetime` can represent; the last representable second is
 * `MaxTime`, within 9999-12-31.
 */
module Calendar {
  import opened Wrappers
  import opened PyText

  predicate IsLeap(y: int) {
    y % 4 == 0 && (y % 100 != 0 || y % 400 == 0)
  }

  function DaysInYear(y: int): int {
    if IsLeap(y) then 366 else 365
  }

  function DaysInMonth(y: int, m: int): (n: int)
    requires 1 <= m <= 12
    ensures 28 <= n <= 31
  {
    if m == 2 then (if IsLeap(y) then 29 else 28)
    else if m == 4 || m == 6 || m == 9 || m == 11 then 30
    else 31
  }

  /** Days in the months of year `y` before month `m`. */
  function DaysBeforeMonth(y: int, m: int): nat
    requires 1 <= m <= 13
  {
    if m == 1 then 0 else DaysBeforeMonth(y, m - 1) + DaysInMonth(y, m - 1)
  }

  /** Days in the years before year `y` (`_days_before_year` of Python's `datetime`). */
  function DaysBeforeYear(y: int): int
    requires y >= 1
  {
    var p := y - 1;
    p * 365 + p / 4 - p / 100 + p / 400
  }

  /** The dates `datetime.date(y, m, d)` accepts. */
  predicate ValidDate(y: int, m: int, d: int) {
    1 <= y <= 9999 && 1 <= m <= 12 && 1 <= d <= DaysInMonth(y, m)
  }

  /** `date(y, m, d).toordinal()`: 0001-01-01 is day 1. */
  function Ordinal(y: int, m: int, d: int): int
    requires ValidDate(y, m, d)
  {
    DaysBeforeYear(y) + DaysBeforeMonth(y, m) + d
  }

  const SecondsPerDay: int := 86400
  /** `date(9999, 12, 31).toordinal()`. */
  const MaxOrdinal: int := 3652059
  const MaxTime: int := MaxOrdinal * SecondsPerDay - 1

  /** The timestamps a `datetime` can hold. */
  predicate InRange(t: int) {
    0 <= t <= MaxTime
  }

  lemma {:induction false} DaysBeforeMonthMono(y: int, a: int, b: int)
    requires 1 <= a <= b <= 13
    ensures DaysBeforeMonth(y, a) + 28 * (b - a) <= DaysBeforeMonth(y, b)
    decreases b - a
  {
    if a < b {
      DaysBeforeMonthMono(y, a, b - 1);
    }
  }

  lemma DaysBeforeMonthYear(y: int)
    ensures DaysBeforeMonth(y, 13) == DaysInYear(y)
  {
    var feb := DaysInMonth(y, 2);
    assert DaysBeforeMonth(y, 2) == 31;
    assert DaysBeforeMonth(y, 3) == 31 + feb;
    assert DaysBeforeMonth(y, 4) == 62 + feb;
    assert DaysBeforeMonth(y, 5) == 92 + feb;
    assert DaysBeforeMonth(y, 6) == 123 + feb;
    assert DaysBeforeMonth(y, 7) == 153 + feb;
    assert DaysBeforeMonth(y, 8) == 184 + feb;
    assert DaysBeforeMonth(y, 9) == 215 + feb;
    assert DaysBeforeMonth(y, 10) == 245 + feb;
    assert DaysBeforeMonth(y, 11) == 276 + feb;
    assert DaysBeforeMonth(y, 12) == 306 + feb;
  }

  lemma DaysBeforeYearStep(y: int)
    requires y >= 1
    ensures DaysBeforeYear(y + 1) == DaysBeforeYear(y) + DaysInYear(y)
  {
    var p := y - 1;
    assert (p + 1) / 4 == p / 4 + (if y % 4 == 0 then 1 else 0);
    assert (p + 1) / 100 == p / 100 + (if y % 100 == 0 then 1 else 0);
    assert (p + 1) / 400 == p / 400 + (if y % 400 == 0 then 1 else 0);
  }

  lemma {:induction false} DaysBeforeYearMono(a: int, b: int)
    requires 1 <= a <= b
    ensures DaysBeforeYear(a) + 365 * (b - a) <= DaysBeforeYear(b)
    decreases b - a
  {
    if a < b {
      DaysBeforeYearMono(a, b - 1);
      DaysBeforeYearStep(b - 1);
    }
  }

  /** A date's ordinal lies inside its own year. */
  lemma OrdinalInYear(y: int, m: int, d: int)
    requires ValidDate(y, m, d)
    ensures DaysBeforeYear(y) < Ordinal(y, m, d) <= DaysBeforeYear(y + 1)
  {
    DaysBeforeMonthMono(y, m + 1, 13);
    DaysBeforeMonthYear(y);
    DaysBeforeYearStep(y);
  }

  /** Every valid date lies between 0001-01-01 and 9999-12-31. */
  lemma OrdinalBounds(y: int, m: int, d: int)
    requires ValidDate(y, m, d)
    ensures 1 <= Ordinal(y, m, d) <= MaxOrdinal
  {
    OrdinalInYear(y, m, d);
    DaysBeforeYearMono(y + 1, 10000);
    assert DaysBeforeYear(10000) == MaxOrdinal;
  }

  /** The first second of day number `k`, counting 0001-01-01 as day 0. */
  lemma DayStart(k: int)
    requires 0 <= k < MaxOrdinal
    ensures InRange(k * SecondsPerDay) && (k * SecondsPerDay) % SecondsPerDay == 0
  {
  }

  /** Midnight at the start of a valid date. */
  function Midnight(y: int, m: int, d: int): (t: int)
    requires ValidDate(y, m, d)
    ensures InRange(t) && t % SecondsPerDay == 0
  {
    OrdinalBounds(y, m, d);
    DayStart(Ordinal(y, m, d) - 1);
    (Ordinal(y, m, d) - 1) * SecondsPerDay
  }

  /** Later dates have later midnights: the timestamp order is the calendar order. */
  lemma MidnightOrder(y1: int, m1: int, d1: int, y2: int, m2: int, d2: int)
    requires ValidDate(y1, m1, d1) && ValidDate(y2, m2, d2)
    requires y1 < y2 || (y1 == y2 && (m1 < m2 || (m1 == m2 && d1 < d2)))
    ensures Midnight(y1, m1, d1) < Midnight(y2, m2, d2)
  {
    if y1 < y2 {
      OrdinalInYear(y1, m1, d1);
      OrdinalInYear(y2, m2, d2);
      DaysBeforeYearMono(y1 + 1, y2);
    } else if m1 < m2 {
      DaysBeforeMonthMono(y1, m1 + 1, m2);
    }
  }

  /** Distinct valid dates have distinct timestamps. */
  lemma MidnightInjective(y1: int, m1: int, d1: int, y2: int, m2: int, d2: int)
    requires ValidDate(y1, m1, d1) && ValidDate(y2, m2, d2)
    requires Midnight(y1, m1, d1) == Midnight(y2, m2, d2)
    ensures y1 == y2 && m1 == m2 && d1 == d2
  {
    if y1 < y2 || (y1 == y2 && (m1 < m2 || (m1 == m2 && d1 < d2))) {
      MidnightOrder(y1, m1, d1, y2, m2, d2);
    } else if y2 < y1 || (y1 == y2 && (m2 < m1 || (m1 == m2 && d2 < d1))) {
      MidnightOrder(y2, m2, d2, y1, m1, d1);
    }
  }

  // ---------------------------------------------------------------------------
  // strptime(text, "%d.%m.%Y")

  predicate NonZeroDigit(c: char) {
    '1' <= c <= '9'
  }

  function TwoDigitValue(a: char, b: char): nat
    requires IsDigit(a) && IsDigit(b)
  {
    10 * DigitValue(a) + DigitValue(b)
  }

  /** `%d` matches `3[01]|[12]\d|0[1-9]|[1-9]| [1-9]`. */
  function DayField(p: string): (r: Option<int>)
    ensures r.Some? ==> 1 <= r.value <= 31
  {
    if |p| == 2 && p[0] == '3' && (p[1] == '0' || p[1] == '1') then Some(TwoDigitValue(p[0], p[1]))
    else if |p| == 2 && (p[0] == '1' || p[0] == '2') && IsDigit(p[1]) then Some(TwoDigitValue(p[0], p[1]))
    else if |p| == 2 && p[0] == '0' && NonZeroDigit(p[1]) then Some(TwoDigitValue(p[0], p[1]))
    else if |p| == 1 && NonZeroDigit(p[0]) then Some(DigitValue(p[0]))
    else if |p| == 2 && p[0] == ' ' && NonZeroDigit(p[1]) then Some(DigitValue(p[1]))
    else None
  }

  /** `%m` matches `1[0-2]|0[1-9]|[1-9]`. */
  function MonthField(p: string): (r: Option<int>)
    ensures r.Some? ==> 1 <= r.value <= 12
  {
    if |p| == 2 && p[0] == '1' && '0' <= p[1] <= '2' then Some(TwoDigitValue(p[0], p[1]))
    else if |p| == 2 && p[0] == '0' && NonZeroDigit(p[1]) then Some(TwoDigitValue(p[0], p[1]))
    else if |p| == 1 && NonZeroDigit(p[0]) then Some(DigitValue(p[0]))
    else None
  }

  /** `%Y` matches exactly four digits. */
  function YearField(p: string): (r: Option<int>)
    ensures r.Some? ==> 0 <= r.value <= 9999
  {
    if |p| == 4 && AllDigits(p) then Some(DecimalValue(p)) else None
  }

  /**
   * `datetime.strptime(s, "%d.%m.%Y")` as a timestamp, or None where it raises
   * ValueError. Each directive is followed by a literal '.' or by the end of the
   * text, and no directive matches a '.', so the fields are exactly the three
   * pieces of `s.split('.')`; the whole text must be consumed. The parsed
   * numbers must then form a real date (year 0 and 29 February of a common year
   * are refused).
   */
  function ParseDayMonthYear(s: string): (r: Option<int>)
    ensures r.Some? ==> InRange(r.value) && r.value % SecondsPerDay == 0
    ensures r.Some? ==> exists y, m, d :: ValidDate(y, m, d) && r.value == Midnight(y, m, d)
  {
    var parts := Split(s, '.');
    if |parts| != 3 then None
    else
      match (DayField(parts[0]), MonthField(parts[1]), YearField(parts[2]))
      case (Some(d), Some(m), Some(y)) =>
        if ValidDate(y, m, d) then Some(Midnight(y, m, d)) else None
      case _ => None
  }

  /** Zero-padded two-digit text of `n`. */
  function Pad2(n: nat): (s: string)
    requires n < 100
    ensures |s| == 2 && AllDigits(s)
  {
    [DigitChar(n / 10), DigitChar(n % 10)]
  }

  /** Zero-padded four-digit text of `n`. */
  function Pad4(n: nat): (s: string)
    requires n < 10000
    ensures |s| == 4 && AllDigits(s)
  {
    [DigitChar(n / 1000), DigitChar(n / 100 % 10), DigitChar(n / 10 % 10), DigitChar(n % 10)]
  }

  /** The zero-padded dd.mm.yyyy text of a date. */
  function FormatDate(y: int, m: int, d: int): string
    requires ValidDate(y, m, d)
  {
    Pad2(d) + "." + Pad2(m) + "." + Pad4(y)
  }

  lemma SplitThree(a: string, b: string, c: string)
    requires '.' !in a && '.' !in b && '.' !in c
    ensures Split(a + "." + b + "." + c, '.') == [a, b, c]
  {
    var parts := [a, b, c];
    assert Join(parts[2..], '.') == c;
    assert Join(parts[1..], '.') == b + "." + c;
    assert Join(parts, '.') == a + "." + b + "." + c;
    SplitJoin(parts, '.');
  }

  lemma DayFieldPad2(d: int)
    requires 1 <= d <= 31
    ensures DayField(Pad2(d)) == Some(d)
  {
  }

  lemma MonthFieldPad2(m: int)
    requires 1 <= m <= 12
    ensures MonthField(Pad2(m)) == Some(m)
  {
  }

  lemma FourDigitValue(p: string)
    requires |p| == 4 && AllDigits(p)
    ensures DecimalValue(p) == DigitValue(p[0]) * 1000 + DigitValue(p[1]) * 100 + DigitValue(p[2]) * 10 + DigitValue(p[3])
  {
    var a, b, c := p[..1], p[..2], p[..3];
    assert a[..0] == [] && b[..1] == a && c[..2] == b && p[..3] == c;
    assert DecimalValue(a) == DigitValue(p[0]);
    assert DecimalValue(b) == DigitValue(p[0]) * 10 + DigitValue(p[1]);
    assert DecimalValue(c) == DecimalValue(b) * 10 + DigitValue(p[2]);
  }

  lemma YearFieldPad4(y: int)
    requires 0 <= y <= 9999
    ensures YearField(Pad4(y)) == Some(y)
  {
    var p := Pad4(y);
    FourDigitValue(p);
    assert DigitValue(p[0]) == y / 1000 && DigitValue(p[1]) == y / 100 % 10;
    assert DigitValue(p[2]) == y / 10 % 10 && DigitValue(p[3]) == y % 10;
    PlaceValues(y);
  }

  /** A number below 10000 is the sum of its four decimal places. */
  lemma PlaceValues(y: int)
    requires 0 <= y <= 9999
    ensures y == y / 1000 * 1000 + y / 100 % 10 * 100 + y / 10 % 10 * 10 + y % 10
  {
    assert y / 100 == y / 1000 * 10 + y / 100 % 10;
    assert y / 10 == y / 100 * 10 + y / 10 % 10;
  }

  /** Well-formed zero-padded fields parse to the date they name, when that date exists. */
  lemma ParsePadded(y: int, m: int, d: int)
    requires 0 <= y <= 9999 && 1 <= m <= 12 && 1 <= d <= 31
    ensures ParseDayMonthYear(Pad2(d) + "." + Pad2(m) + "." + Pad4(y))
         == if ValidDate(y, m, d) then Some(Midnight(y, m, d)) else None
  {
    SplitThree(Pad2(d), Pad2(m), Pad4(y));
    DayFieldPad2(d);
    MonthFieldPad2(m);
    YearFieldPad4(y);
  }

  /** A date written as zero-padded dd.mm.yyyy text parses back to its midnight. */
  lemma ParseFormatDate(y: int, m: int, d: int)
    requires ValidDate(y, m, d)
    ensures ParseDayMonthYear(FormatDate(y, m, d)) == Some(Midnight(y, m, d))
  {
    ParsePadded(y, m, d);
  }

  /** One-digit days and months are accepted as well, e.g. "5.3.2023". */
  lemma ParseOneDigitDayMonth(y: int, m: int, d: int)
    requires ValidDate(y, m, d) && d < 10 && m < 10
    ensures ParseDayMonthYear([DigitChar(d)] + "." + [DigitChar(m)] + "." + Pad4(y)) == Some(Midnight(y, m, d))
  {
    SplitThree([DigitChar(d)], [DigitChar(m)], Pad4(y));
    YearFieldPad4(y);
  }

  /** "29.02.YYYY" is accepted exactly in the leap years of the calendar's range. */
  lemma ParseLeapDay(y: int)
    requires 0 <= y <= 9999
    ensures ParseDayMonthYear(Pad2(29) + "." + Pad2(2) + "." + Pad4(y)).Some? <==> 1 <= y && IsLeap(y)
  {
    ParsePadded(y, 2, 29);
  }

  // ---------------------------------------------------------------------------
  // Exactly which texts strptime accepts

  /** The texts `%d` reads as day `d`: two digits, or for a one-digit day also one digit or a space and one digit. */
  function DayTexts(d: int): set<string>
    requires 1 <= d <= 31
  {
    {Pad2(d)} + (if d < 10 then {[DigitChar(d)], [' ', DigitChar(d)]} else {})
  }

  /** The texts `%m` reads as month `m`: two digits, or for a one-digit month also one digit. */
  function MonthTexts(m: int): set<string>
    requires 1 <= m <= 12
  {
    {Pad2(m)} + (if m < 10 then {[DigitChar(m)]} else {})
  }

  lemma DigitRoundTrip(c: char)
    requires IsDigit(c)
    ensures DigitChar(DigitValue(c)) == c
  {
  }

  /** Two digits whose value is `n` are `Pad2(n)`. */
  lemma TwoDigitText(p: string, n: int)
    requires |p| == 2 && IsDigit(p[0]) && IsDigit(p[1])
    requires n == TwoDigitValue(p[0], p[1])
    ensures p == Pad2(n)
  {
    assert n / 10 == DigitValue(p[0]) && n % 10 == DigitValue(p[1]);
    DigitRoundTrip(p[0]);
    DigitRoundTrip(p[1]);
  }

  /** Every text `%d` accepts is one of the day's texts. */
  lemma DayFieldText(p: string, d: int)
    requires DayField(p) == Some(d)
    ensures p in DayTexts(d)
  {
    if |p| == 2 && IsDigit(p[0]) && IsDigit(p[1]) {
      TwoDigitText(p, d);
    } else {
      DigitRoundTrip(p[|p| - 1]);
      assert p == [DigitChar(d)] || p == [' ', DigitChar(d)];
    }
  }

  /** Every text of a day is accepted by `%d` as that day. */
  lemma DayTextField(p: string, d: int)
    requires 1 <= d <= 31 && p in DayTexts(d)
    ensures DayField(p) == Some(d)
  {
    if p == Pad2(d) {
      DayFieldPad2(d);
    }
  }

  /** Every text `%m` accepts is one of the month's texts. */
  lemma MonthFieldText(p: string, m: int)
    requires MonthField(p) == Some(m)
    ensures p in MonthTexts(m)
  {
    if |p| == 2 {
      TwoDigitText(p, m);
    } else {
      DigitRoundTrip(p[0]);
      assert p == [DigitChar(m)];
    }
  }

  /** Every text of a month is accepted by `%m` as that month. */
  lemma MonthTextField(p: string, m: int)
    requires 1 <= m <= 12 && p in MonthTexts(m)
    ensures MonthField(p) == Some(m)
  {
    if p == Pad2(m) {
      MonthFieldPad2(m);
    }
  }

  /** Every text `%Y` accepts is the four-digit text of its year. */
  lemma YearFieldText(p: string, y: int)
    requires YearField(p) == Some(y)
    ensures p == Pad4(y)
  {
    FourDigitValue(p);
    DigitPlaces(DigitValue(p[0]), DigitValue(p[1]), DigitValue(p[2]), DigitValue(p[3]));
    DigitRoundTrip(p[0]);
    DigitRoundTrip(p[1]);
    DigitRoundTrip(p[2]);
    DigitRoundTrip(p[3]);
    assert p == [p[0], p[1], p[2], p[3]];
  }

  /** The four decimal places of a four-digit number are its digits. */
  lemma DigitPlaces(a: nat, b: nat, c: nat, e: nat)
    requires a < 10 && b < 10 && c < 10 && e < 10
    ensures (a * 1000 + b * 100 + c * 10 + e) / 1000 == a
    ensures (a * 1000 + b * 100 + c * 10 + e) / 100 % 10 == b
    ensures (a * 1000 + b * 100 + c * 10 + e) / 10 % 10 == c
    ensures (a * 1000 + b * 100 + c * 10 + e) % 10 == e
  {
    var y := a * 1000 + b * 100 + c * 10 + e;
    assert y / 10 == a * 100 + b * 10 + c;
    assert y / 100 == a * 10 + b;
  }

  /** A split into three fields puts the text back together around two dots. */
  lemma ThreeFields(s: string)
    requires |Split(s, '.')| == 3
    ensures s == Split(s, '.')[0] + "." + Split(s, '.')[1] + "." + Split(s, '.')[2]
  {
    var parts := Split(s, '.');
    JoinSplit(s, '.');
    assert parts[1..][1..] == [parts[2]];
    assert Join(parts[1..], '.') == parts[1] + "." + parts[2];
  }

  /**
   * What strptime accepts is exactly a day text, a dot, a month text, a dot
   * and four year digits naming a valid date, and it reads that date.
   */
  lemma ParseAccepted(s: string) returns (y: int, m: int, d: int, day: string, month: string)
    ensures ParseDayMonthYear(s).Some? ==> ValidDate(y, m, d) && ParseDayMonthYear(s) == Some(Midnight(y, m, d))
    ensures ParseDayMonthYear(s).Some? ==> day in DayTexts(d) && month in MonthTexts(m)
    ensures ParseDayMonthYear(s).Some? ==> s == day + "." + month + "." + Pad4(y)
  {
    if ParseDayMonthYear(s).Some? {
      var parts := Split(s, '.');
      day, month := parts[0], parts[1];
      d, m, y := DayField(day).value, MonthField(month).value, YearField(parts[2]).value;
      DayFieldText(day, d);
      MonthFieldText(month, m);
      YearFieldText(parts[2], y);
      ThreeFields(s);
    } else {
      y, m, d, day, month := 1, 1, 1, "", "";
    }
  }

  /** Conversely, every such text of a valid date is accepted as that date. */
  lemma ParseWritten(y: int, m: int, d: int, day: string, month: string)
    requires ValidDate(y, m, d) && day in DayTexts(d) && month in MonthTexts(m)
    ensures ParseDayMonthYear(day + "." + month + "." + Pad4(y)) == Some(Midnight(y, m, d))
  {
    assert '.' !in day && '.' !in month;
    SplitThree(day, month, Pad4(y));
    DayTextField(day, d);
    MonthTextField(month, m);
    YearFieldPad4(y);
  }
}

=== FILE: card_data.dfy ===
/**
 * The organisation card: its name, its average rating and its two counts,
 * read from the texts of four page elements. Each field is guarded on its
 * own: an element that is missing or a text that does not parse leaves that
 * one field absent and the others untouched.
 */
module CardData {
  import opened Wrappers
  import opened PyText

  /** The inner texts of the card's elements, each absent when its element was not found. */
  datatype CardText = CardText(
    name: Option<string>,         // the heading
    rating: Option<string>,       // the first span of the rating summary, e.g. "4,5"
    reviewsCount: Option<string>, // the second span of the rating summary
    summary: Option<string>)      // the whole rating summary, e.g. "4,5(1 234)"

  /**
   * The parsed card. The rating is kept as its normalised decimal text; its
   * conversion to a floating-point number is not modelled.
   */
  datatype Card = Card(
    name: Option<string>,
    rating: Option<string>,
    reviewsCount: Option<int>,
    ratingsCount: Option<int>)

  /** No character of `s` is a digit. */
  predicate NoDigits(s: string) {
    forall i :: 0 <= i < |s| ==> !IsDigit(s[i])
  }

  /**
   * The rating text with decimal commas turned into points, present exactly
   * when Python's `float()` accepts it.
   */
  function Rating(text: string): (r: Option<string>)
    ensures r.Some? <==> IsFloatText(ReplaceChar(text, ',', '.'))
    ensures r.Some? ==> |r.value| == |text| && ',' !in r.value
    ensures r.Some? ==> forall i :: 0 <= i < |text| && text[i] != ',' ==> r.value[i] == text[i]
    ensures r.Some? ==> forall i :: 0 <= i < |text| && text[i] == ',' ==> r.value[i] == '.'
  {
    var t := ReplaceChar(text, ',', '.');
    if IsFloatText(t) then Some(t) else None
  }

  /** `int()` of the digits of `text`: absent when it has none. */
  function CountOf(text: string): (r: Option<int>)
    ensures r.Some? <==> exists i :: 0 <= i < |text| && IsDigit(text[i])
    ensures r.Some? ==> r.value == DecimalValue(DigitsOf(text)) && r.value >= 0
  {
    var ds := DigitsOf(text);
    ParseIntDigits(ds);
    DigitsPresent(text);
    ParseInt(ds)
  }

  /**
   * The text the ratings count is read from: after the first "(", up to the
   * next ")" or "(" or the end; absent (Python raises IndexError) when there
   * is no "(".
   */
  function RatingsSegment(text: string): (r: Option<string>)
    ensures r.None? <==> '(' !in text
  {
    SplitHasSecond(text, '(');
    if '(' in text then Some(Split(Split(text, '(')[1], ')')[0]) else None
  }

  /** The number of ratings, from the digits of the segment. */
  function RatingsCount(text: string): (r: Option<int>)
    ensures '(' !in text ==> r.None?
    ensures '(' in text ==> r == CountOf(RatingsSegment(text).value)
    ensures r.Some? ==> r.value >= 0
  {
    match RatingsSegment(text)
    case None => None
    case Some(segment) => CountOf(segment)
  }

  /** Reading the whole card: every field from its own element's text only. */
  function ParseCard(t: CardText): (c: Card)
    ensures c.name == t.name
    ensures t.rating.None? ==> c.rating.None?
    ensures t.rating.Some? ==> c.rating == Rating(t.rating.value)
    ensures t.reviewsCount.None? ==> c.reviewsCount.None?
    ensures t.reviewsCount.Some? ==> c.reviewsCount == CountOf(t.reviewsCount.value)
    ensures t.summary.None? ==> c.ratingsCount.None?
    ensures t.summary.Some? ==> c.ratingsCount == RatingsCount(t.summary.value)
  {
    Card(
      t.name,
      if t.rating.Some? then Rating(t.rating.value) else None,
      if t.reviewsCount.Some? then CountOf(t.reviewsCount.value) else None,
      if t.summary.Some? then RatingsCount(t.summary.value) else None)
  }

  // ---------------------------------------------------------------------------
  // Properties

  /**
   * The fields are read independently: two cards whose element texts agree
   * on one field agree on that field's value, whatever the other elements hold.
   */
  lemma CardFieldsIndependent(t1: CardText, t2: CardText)
    ensures t1.name == t2.name ==> ParseCard(t1).name == ParseCard(t2).name
    ensures t1.rating == t2.rating ==> ParseCard(t1).rating == ParseCard(t2).rating
    ensures t1.reviewsCount == t2.reviewsCount ==> ParseCard(t1).reviewsCount == ParseCard(t2).reviewsCount
    ensures t1.summary == t2.summary ==> ParseCard(t1).ratingsCount == ParseCard(t2).ratingsCount
  {
  }

  /** A missing element or an unparseable text leaves only its own field absent. */
  lemma CardFieldAbsent(t: CardText)
    ensures ParseCard(t).rating.None? <==> t.rating.None? || !IsFloatText(ReplaceChar(t.rating.value, ',', '.'))
    ensures ParseCard(t).reviewsCount.None? <==> t.reviewsCount.None? || NoDigits(t.reviewsCount.value)
    ensures ParseCard(t).ratingsCount.None? <==>
      t.summary.None? || '(' !in t.summary.value || NoDigits(RatingsSegment(t.summary.value).value)
  {
  }

  /** A decimal-comma rating "A,B" is accepted as "A.B". */
  lemma DecimalCommaRating(a: string, b: string)
    requires |a| > 0 && |b| > 0 && AllDigits(a) && AllDigits(b)
    ensures Rating(a + "," + b) == Some(a + "." + b)
  {
    var text := a + "," + b;
    var u := a + "." + b;
    var t := ReplaceChar(text, ',', '.');
    assert |t| == |u|;
    forall i | 0 <= i < |u|
      ensures t[i] == u[i]
    {
      if i < |a| {
        assert text[i] == a[i] && u[i] == a[i];
      } else if i > |a| {
        assert text[i] == b[i - |a| - 1] && u[i] == b[i - |a| - 1];
      }
    }
    assert t == u;
    FloatText(a, b);
  }

  lemma FloatText(a: string, b: string)
    requires |a| > 0 && |b| > 0 && AllDigits(a) && AllDigits(b)
    ensures IsFloatText(a + "." + b)
  {
    var u := a + ['.'] + b;
    assert u == a + "." + b;
    assert u[0] == a[0];
    assert u[|u| - 1] == b[|b| - 1];
    StripUntrimmed(u);
    assert forall i :: 0 <= i < |u| ==> u[i] == '.' || IsDigit(u[i]);
    NoExponent(u);
    assert u[..|u|] == u;
    SplitPrefix(a, '.', b);
    SplitNoSep(b, '.');
    DigitsAreRun(a);
    DigitsAreRun(b);
    assert IsFloatMantissa(u);
  }

  /** Digit-free words around a number do not change it: "1 234 reviews" style texts read the number. */
  lemma CountOfShown(pre: string, n: nat, post: string)
    requires NoDigits(pre) && NoDigits(post)
    ensures CountOf(pre + ShowNat(n) + post) == Some(n)
  {
    NoDigitsFilter(pre);
    NoDigitsFilter(post);
    DigitsOfConcat(pre + ShowNat(n), post);
    DigitsOfConcat(pre, ShowNat(n));
    DigitsOfDigits(ShowNat(n));
    assert DigitsOf(pre + ShowNat(n) + post) == ShowNat(n);
    DecimalValueShowNat(n);
  }

  /** Separators between digit groups are dropped: "1 234" counts as "1234". */
  lemma CountOfJoinsDigits(a: string, sep: string, b: string)
    requires NoDigits(sep)
    ensures CountOf(a + sep + b) == CountOf(a + b)
  {
    NoDigitsFilter(sep);
    DigitsOfConcat(a, sep);
    assert DigitsOf(a + sep) == DigitsOf(a);
    DigitsOfConcat(a + sep, b);
    DigitsOfConcat(a, b);
    assert DigitsOf(a + sep + b) == DigitsOf(a + b);
  }

  lemma NoDigitsFilter(s: string)
    requires NoDigits(s)
    ensures DigitsOf(s) == []
  {
    DigitsPresent(s);
  }

  /**
   * The segment is what follows the first "(" up to the next ")" or "(",
   * or to the end of the text.
   */
  lemma RatingsSegmentStops(pre: string, mid: string, tail: string)
    requires '(' !in pre && '(' !in mid && ')' !in mid
    requires |tail| == 0 || tail[0] == ')' || tail[0] == '('
    ensures RatingsSegment(pre + "(" + mid + tail) == Some(mid)
  {
    var text := pre + "(" + mid + tail;
    var x := mid + tail;
    assert text == pre + ['('] + x;
    assert '(' in text by {
      assert text[|pre|] == '(';
    }
    SplitPrefix(pre, '(', x);
    assert Split(text, '(')[1] == Split(x, '(')[0];
    FirstField(x, '(');
    var i := IndexOf(x, '(');
    assert x[..|mid|] == mid;
    assert i >= |mid|;
    var f := x[..i];
    assert f[..|mid|] == mid;
    FirstField(f, ')');
    if |f| > |mid| {
      assert f[|mid|] == tail[0];
      assert tail[0] == ')';
    }
    IndexOfAt(f, ')', |mid|);
  }

  /** A ratings count written "(N)" after digit-free text reads as N. */
  lemma RatingsCountShown(pre: string, n: nat, post: string)
    requires '(' !in pre
    ensures RatingsCount(pre + "(" + ShowNat(n) + ")" + post) == Some(n)
  {
    assert '(' !in ShowNat(n) && ')' !in ShowNat(n) by {
      assert forall i :: 0 <= i < |ShowNat(n)| ==> IsDigit(ShowNat(n)[i]);
    }
    assert pre + "(" + ShowNat(n) + ")" + post == pre + "(" + ShowNat(n) + (")" + post);
    RatingsSegmentStops(pre, ShowNat(n), ")" + post);
    DigitsOfDigits(ShowNat(n));
    DecimalValueShowNat(n);
    assert ShowNat(n)[0] in ShowNat(n);
  }
}

=== FILE: date_normalizer.dfy ===
/**
 * The date normaliser `parse_date`: a review's displayed date text becomes an
 * absolute timestamp relative to the reading of the clock, `now`.
 *
 * Keyword rules are tried in a fixed order and the first keyword found wins;
 * a relative rule goes back N units from `now`, N being `int()` of the first
 * whitespace-separated token. Text with no keyword is parsed strictly as
 * `DD.MM.YYYY` and is unresolved when that fails. A relative rule whose count
 * does not parse, or whose result leaves the range of `timedelta` or
 * `datetime`, raises instead.
 */
module DateNormalizer {
  import opened Wrappers
  import opened PyText
  import opened Calendar

  /** The rules of `parse_date`, in the order they are tried. */
  datatype Unit = Recent | Days | Weeks | Months | Years

  /** What `parse_date` does with a text: a timestamp, `None`, or an exception. */
  datatype DateOutcome = Resolved(at: int) | Unresolved | Raised

  /** The rule that fires for `text`: the first whose keyword occurs in it. */
  function UnitOf(text: string): Option<Unit> {
    if Contains(text, "minutes") || Contains(text, "hour") then Some(Recent)
    else if Contains(text, "day") then Some(Days)
    else if Contains(text, "week") then Some(Weeks)
    else if Contains(text, "month") then Some(Months)
    else if Contains(text, "year") then Some(Years)
    else None
  }

  /** Days one count of a relative unit stands for: months are 30 days and years 365. */
  function DaysPerUnit(u: Unit): nat {
    match u
    case Recent => 0
    case Days => 1
    case Weeks => 7
    case Months => 30
    case Years => 365
  }

  /** `int(text.split()[0])`, or None where either step raises. */
  function LeadingCount(text: string): Option<int> {
    match FirstToken(text)
    case None => None
    case Some(tok) => ParseInt(tok)
  }

  /** `timedelta.max.days`: larger day counts make `timedelta` raise OverflowError. */
  const MaxDeltaDays: int := 999999999

  /** `now - timedelta(days = days)`: OverflowError outside the range of `timedelta` or of `datetime`. */
  function GoBack(now: int, days: int): (r: DateOutcome)
    ensures r.Resolved? ==> InRange(r.at)
    ensures r.Resolved? ==> now - r.at == days * SecondsPerDay
    ensures InRange(now) && -MaxDeltaDays <= days <= MaxDeltaDays && InRange(now - days * SecondsPerDay) ==> r.Resolved?
  {
    var t := now - days * SecondsPerDay;
    if -MaxDeltaDays <= days <= MaxDeltaDays && InRange(t) then Resolved(t) else Raised
  }

  /** `parse_date(text)` with the clock reading `now`. */
  function ParseDate(text: string, now: int): (r: DateOutcome)
    ensures r.Raised? ==> UnitOf(text).Some? && UnitOf(text) != Some(Recent)
    ensures UnitOf(text).Some? && UnitOf(text) != Some(Recent) && LeadingCount(text).None? ==> r == Raised
    ensures r.Unresolved? <==> UnitOf(text).None? && ParseDayMonthYear(text).None?
    ensures r.Resolved? && UnitOf(text).None? ==> InRange(r.at) && r.at % SecondsPerDay == 0
    ensures UnitOf(text).None? && ParseDayMonthYear(text).Some? ==> r == Resolved(ParseDayMonthYear(text).value)
    ensures UnitOf(text) == Some(Recent) ==> r == Resolved(now)
  {
    match UnitOf(text)
    case Some(Recent) => Resolved(now)
    case Some(u) =>
      (match LeadingCount(text)
       case None => Raised
       case Some(n) => GoBack(now, n * DaysPerUnit(u)))
    case None =>
      match ParseDayMonthYear(text)
      case Some(t) => Resolved(t)
      case None => Unresolved
  }

  /** A relative date with a non-negative count is never after `now`. */
  lemma RelativeNotAfterNow(text: string, now: int)
    requires UnitOf(text).Some?
    requires LeadingCount(text).Some? && LeadingCount(text).value >= 0
    requires ParseDate(text, now).Resolved?
    ensures ParseDate(text, now).at <= now
  {
    var u := UnitOf(text).value;
    var n := LeadingCount(text).value;
    if u != Recent {
      RelativeRule(text, now, u, n);
      ScaleMono(0, n, u);
    }
  }

  /**
   * Within one unit, a larger count never gives a later date; for any unit
   * other than minutes/hours a strictly larger count gives a strictly earlier one.
   */
  lemma RelativeMonotone(text1: string, text2: string, now: int)
    requires UnitOf(text1).Some? && UnitOf(text1) == UnitOf(text2)
    requires LeadingCount(text1).Some? && LeadingCount(text2).Some?
    requires LeadingCount(text1).value <= LeadingCount(text2).value
    requires ParseDate(text1, now).Resolved? && ParseDate(text2, now).Resolved?
    ensures ParseDate(text2, now).at <= ParseDate(text1, now).at
    ensures UnitOf(text1) != Some(Recent) && LeadingCount(text1).value < LeadingCount(text2).value
            ==> ParseDate(text2, now).at < ParseDate(text1, now).at
  {
    var u := UnitOf(text1).value;
    var n1, n2 := LeadingCount(text1).value, LeadingCount(text2).value;
    if u != Recent {
      var k := DaysPerUnit(u);
      assert ParseDate(text1, now) == GoBack(now, n1 * k);
      assert ParseDate(text2, now) == GoBack(now, n2 * k);
      ScaleMono(n1, n2, u);
      GoBackMono(now, n1 * k, n2 * k);
    }
  }

  lemma ScaleMono(n1: int, n2: int, u: Unit)
    requires n1 <= n2
    ensures n1 * DaysPerUnit(u) <= n2 * DaysPerUnit(u)
    ensures n1 < n2 && u != Recent ==> n1 * DaysPerUnit(u) < n2 * DaysPerUnit(u)
  {
    match u
    case Recent =>
    case Days =>
    case Weeks =>
    case Months =>
    case Years =>
  }

  /** Going back more days gives an earlier time. */
  lemma GoBackMono(now: int, d1: int, d2: int)
    requires d1 <= d2 && GoBack(now, d1).Resolved? && GoBack(now, d2).Resolved?
    ensures GoBack(now, d2).at <= GoBack(now, d1).at
    ensures d1 < d2 ==> GoBack(now, d2).at < GoBack(now, d1).at
  {
  }

  /** Text with no keyword does not depend on the clock. */
  lemma AbsoluteIgnoresNow(text: string, now1: int, now2: int)
    requires UnitOf(text).None?
    ensures ParseDate(text, now1) == ParseDate(text, now2)
  {
  }

  /** An absolute date is the midnight of the day it names. */
  lemma AbsoluteIsMidnight(text: string, now: int, y: int, m: int, d: int)
    requires ValidDate(y, m, d) && text == FormatDate(y, m, d)
    ensures ParseDate(text, now) == Resolved(Midnight(y, m, d))
  {
    var t := FormatDate(y, m, d);
    assert forall c :: c in t ==> c == '.' || IsDigit(c);
    NotContainsChar(t, "minutes", 'm');
    NotContainsChar(t, "hour", 'h');
    NotContainsChar(t, "day", 'd');
    NotContainsChar(t, "week", 'w');
    NotContainsChar(t, "month", 'm');
    NotContainsChar(t, "year", 'y');
    ParseFormatDate(y, m, d);
  }

  /** A keyword with a letter the text lacks does not occur in it. */
  lemma {:induction false} NotContainsChar(s: string, t: string, c: char)
    requires c in t && c !in s
    ensures !Contains(s, t)
    decreases |s|
  {
    var j :| 0 <= j < |t| && t[j] == c;
    if |t| <= |s| {
      assert s[..|t|][j] == s[j];
    }
    if |s| > 0 {
      NotContainsChar(s[1..], t, c);
    }
  }

  /** A relative rule goes back its count times the unit's length in days. */
  lemma RelativeRule(text: string, now: int, u: Unit, n: int)
    requires UnitOf(text) == Some(u) && u != Recent && LeadingCount(text) == Some(n)
    ensures ParseDate(text, now) == GoBack(now, n * DaysPerUnit(u))
  {
  }

  /** Going back a number of days that stays in range resolves. */
  lemma GoBackResolves(now: int, days: nat)
    requires InRange(now) && InRange(now - days * SecondsPerDay)
    ensures GoBack(now, days) == Resolved(now - days * SecondsPerDay)
  {
  }

  /** A keyword, which starts with a non-digit, cannot begin inside a run of digits. */
  lemma {:induction false} ContainsAfterDigits(p: string, rest: string, t: string)
    requires AllDigits(p) && |t| > 0 && !IsDigit(t[0])
    ensures Contains(p + rest, t) <==> Contains(rest, t)
    decreases |p|
  {
    if |p| > 0 {
      var s := p + rest;
      assert s[0] == p[0];
      assert !StartsWith(s, t);
      assert s[1..] == p[1..] + rest;
      ContainsAfterDigits(p[1..], rest, t);
    } else {
      assert p + rest == rest;
    }
  }

  /** The rule that fires for "N <words>" is the one that fires for the words. */
  lemma UnitAfterNumber(n: nat, rest: string)
    ensures UnitOf(ShowNat(n) + rest) == UnitOf(rest)
  {
    ContainsAfterDigits(ShowNat(n), rest, "minutes");
    ContainsAfterDigits(ShowNat(n), rest, "hour");
    ContainsAfterDigits(ShowNat(n), rest, "day");
    ContainsAfterDigits(ShowNat(n), rest, "week");
    ContainsAfterDigits(ShowNat(n), rest, "month");
    ContainsAfterDigits(ShowNat(n), rest, "year");
  }

  /**
   * A count N followed by whitespace and words whose first keyword is a day,
   * week, month or year goes back N times that unit's days, whenever the
   * result stays in range.
   */
  lemma CountedDate(n: nat, rest: string, now: int, u: Unit)
    requires UnitOf(rest) == Some(u) && u != Recent
    requires |rest| > 0 && IsSpace(rest[0])
    requires InRange(now) && InRange(now - n * DaysPerUnit(u) * SecondsPerDay)
    ensures ParseDate(ShowNat(n) + rest, now) == Resolved(now - n * DaysPerUnit(u) * SecondsPerDay)
  {
    UnitAfterNumber(n, rest);
    LeadingNumber(n, rest);
    RelativeRule(ShowNat(n) + rest, now, u, n);
    GoBackResolves(now, n * DaysPerUnit(u));
  }

  /**
   * Text holding "day" but no 'm' and no 'h' fires the days rule, as
   * "3 days ago" does: neither "minutes" nor "hour" can occur in it.
   */
  lemma DaysWords(text: string, i: int)
    requires OccursAt(text, "day", i)
    requires 'm' !in text && 'h' !in text
    ensures UnitOf(text) == Some(Days)
  {
    NotContainsChar(text, "minutes", 'm');
    NotContainsChar(text, "hour", 'h');
    ContainsAt(text, "day", i);
  }

  /**
   * Text holding "month" but none of 'i', 'u', 'd', 'w' fires the months
   * rule, as "3 months ago" does: its "h" does not make it an hour, since
   * "hour" needs a 'u'.
   */
  lemma MonthsWords(text: string, i: int)
    requires OccursAt(text, "month", i)
    requires 'i' !in text && 'u' !in text && 'd' !in text && 'w' !in text
    ensures UnitOf(text) == Some(Months)
  {
    NotContainsChar(text, "minutes", 'i');
    NotContainsChar(text, "hour", 'u');
    NotContainsChar(text, "day", 'd');
    NotContainsChar(text, "week", 'w');
    ContainsAt(text, "month", i);
  }

  /** " days ago", the words the page shows, fires the days rule. */
  lemma DaysAgoWords(text: string)
    requires text == " days ago"
    ensures UnitOf(text) == Some(Days)
  {
    assert text[1..4] == "day";
    assert 'm' !in text && 'h' !in text;
    DaysWords(text, 1);
  }

  /** " months ago", the words the page shows, fires the months rule. */
  lemma MonthsAgoWords(text: string)
    requires text == " months ago"
    ensures UnitOf(text) == Some(Months)
  {
    assert text[1..6] == "month";
    assert text == [' ', 'm', 'o', 'n', 't', 'h', 's', ' ', 'a', 'g', 'o'];
    assert 'i' !in text;
    assert 'u' !in text;
    assert 'd' !in text;
    assert 'w' !in text;
    MonthsWords(text, 1);
  }

  /** The count in "N <rest>" is N when the rest starts with whitespace. */
  lemma LeadingNumber(n: nat, rest: string)
    requires |rest| > 0 && IsSpace(rest[0])
    ensures LeadingCount(ShowNat(n) + rest) == Some(n)
  {
    var s := ShowNat(n) + rest;
    var tok := ShowNat(n);
    assert s[0..|tok|] == tok;
    assert s[|tok|] == rest[0];
    FirstTokenUnique(s, tok, 0);
    ParseIntShowInt(n);
  }

  /**
   * Text holding none of the letters s, h, d, w, y cannot contain any keyword,
   * and without a '.' it cannot be a `DD.MM.YYYY` date: it is unresolved.
   */
  lemma NoKeywordNoDotUnresolved(text: string, now: int)
    requires 's' !in text && 'h' !in text && 'd' !in text && 'w' !in text && 'y' !in text
    requires '.' !in text
    ensures ParseDate(text, now) == Unresolved
  {
    NotContainsChar(text, "minutes", 's');
    NotContainsChar(text, "hour", 'h');
    NotContainsChar(text, "day", 'd');
    NotContainsChar(text, "week", 'w');
    NotContainsChar(text, "month", 'h');
    NotContainsChar(text, "year", 'y');
    SplitNoSep(text, '.');
  }

  /** Singular "minute" is not a keyword, so "1 minute ago" is left unresolved. */
  lemma SingularMinuteUnresolved(text: string, now: int)
    requires text == "1 minute ago"
    ensures ParseDate(text, now) == Unresolved
  {
    NoKeywordNoDotUnresolved(text, now);
  }

  /** The missing-date placeholder is left unresolved. */
  lemma PlaceholderUnresolved(text: string, now: int)
    requires text == "Нет даты"
    ensures ParseDate(text, now) == Unresolved
  {
    NoKeywordNoDotUnresolved(text, now);
  }

  /** A keyword with a count that is not an integer raises rather than being unresolved. */
  lemma WordCountRaises(text: string, now: int)
    requires text == "a day ago"
    ensures ParseDate(text, now) == Raised
  {
    assert UnitOf(text) == Some(Days) by {
      NotContainsChar(text, "minutes", 's');
      NotContainsChar(text, "hour", 'h');
      ContainsAt(text, "day", 2);
    }
    assert LeadingCount(text).None? by {
      assert text[0..1] == "a";
      FirstTokenUnique(text, "a", 0);
    }
  }
}

=== FILE: finalizer.dfy ===
/**
 * Turning the harvest into the returned review list: a stable sort by
 * parsed date, newest first (entries with equal dates keep the order they
 * were harvested in), truncation to the first `MaxReviews`, and removal of
 * the parsed date from every entry. An error that escapes the harvest loop
 * returns the harvested entries as they are, unsorted and with their dates.
 */
module Finalizer {
  import opened ReviewExtractor
  import opened HarvestLoop

  /** Newest first. */
  predicate SortedDesc(s: seq<Harvested>) {
    forall i, j :: 0 <= i < j < |s| ==> s[i].parsedDate >= s[j].parsedDate
  }

  /** The entries dated `d`, in their order in `s`. */
  function WithDate(s: seq<Harvested>, d: int): (r: seq<Harvested>)
    ensures |r| <= |s|
    ensures forall x :: x in r ==> x in s && x.parsedDate == d
  {
    if |s| == 0 then []
    else (if s[0].parsedDate == d then [s[0]] else []) + WithDate(s[1..], d)
  }

  /** Places `x` before the first entry that is not newer than it. */
  function Insert(x: Harvested, s: seq<Harvested>): (r: seq<Harvested>)
    ensures |r| == |s| + 1
    ensures multiset(r) == multiset(s) + multiset{x}
  {
    if |s| == 0 || s[0].parsedDate <= x.parsedDate then [x] + s
    else
      assert s == [s[0]] + s[1..];
      [s[0]] + Insert(x, s[1..])
  }

  /** Inserting into a newest-first list keeps it newest first. */
  lemma {:induction false} InsertSorted(x: Harvested, s: seq<Harvested>)
    requires SortedDesc(s)
    ensures SortedDesc(Insert(x, s))
    decreases |s|
  {
    if |s| > 0 && s[0].parsedDate > x.parsedDate {
      var rest := Insert(x, s[1..]);
      InsertSorted(x, s[1..]);
      forall k | 0 <= k < |rest|
        ensures rest[k].parsedDate <= s[0].parsedDate
      {
        assert rest[k] in multiset(rest);
        assert rest[k] in s[1..] || rest[k] == x;
      }
    }
  }

  /** `list.sort(key=parsed_date, reverse=True)`, built by insertion from the back. */
  function SortByDate(s: seq<Harvested>): (r: seq<Harvested>)
    ensures |r| == |s|
    ensures multiset(r) == multiset(s)
    ensures SortedDesc(r)
  {
    if |s| == 0 then []
    else
      assert s == [s[0]] + s[1..];
      InsertSorted(s[0], SortByDate(s[1..]));
      Insert(s[0], SortByDate(s[1..]))
  }

  /** Inserting `x` in front of older-or-equal entries keeps `x` ahead of every entry with its date. */
  lemma {:induction false} InsertStable(x: Harvested, s: seq<Harvested>, d: int)
    ensures WithDate(Insert(x, s), d) == WithDate([x] + s, d)
    decreases |s|
  {
    if |s| > 0 && s[0].parsedDate > x.parsedDate {
      var moved := [s[0]] + Insert(x, s[1..]);
      var front := [x] + s[1..];
      InsertStable(x, s[1..], d);
      WithDateCons(moved, d);
      assert moved[1..] == Insert(x, s[1..]);
      WithDateCons(front, d);
      assert front[1..] == s[1..];
      WithDateCons([x] + s, d);
      assert ([x] + s)[1..] == s;
      WithDateCons(s, d);
    }
  }

  /** The sort is stable: the entries of any one date come out in harvest order. */
  lemma {:induction false} SortStable(s: seq<Harvested>, d: int)
    ensures WithDate(SortByDate(s), d) == WithDate(s, d)
    decreases |s|
  {
    if |s| > 0 {
      SortStable(s[1..], d);
      InsertStable(s[0], SortByDate(s[1..]), d);
      assert ([s[0]] + SortByDate(s[1..]))[1..] == SortByDate(s[1..]);
    }
  }

  lemma WithDateCons(s: seq<Harvested>, d: int)
    requires |s| > 0
    ensures WithDate(s, d) == (if s[0].parsedDate == d then [s[0]] else []) + WithDate(s[1..], d)
  {
  }

  /** The newest entry of a newest-first list heads the entries of its date. */
  lemma WithDateHead(s: seq<Harvested>)
    requires |s| > 0
    ensures |WithDate(s, s[0].parsedDate)| > 0 && WithDate(s, s[0].parsedDate)[0] == s[0]
  {
    WithDateCons(s, s[0].parsedDate);
  }

  lemma NewestFirst(s: seq<Harvested>, x: Harvested)
    requires SortedDesc(s) && x in s
    ensures s[0].parsedDate >= x.parsedDate
  {
    var j :| 0 <= j < |s| && s[j] == x;
    if j > 0 {
      assert s[0].parsedDate >= s[j].parsedDate;
    }
  }

  /** Two newest-first lists that agree on every date start with the same entry. */
  lemma HeadsAgree(t: seq<Harvested>, u: seq<Harvested>)
    requires SortedDesc(t) && SortedDesc(u) && |t| > 0 && |u| > 0
    requires forall d :: WithDate(t, d) == WithDate(u, d)
    ensures t[0] == u[0]
  {
    var m := t[0].parsedDate;
    var n := u[0].parsedDate;
    WithDateHead(t);
    WithDateHead(u);
    assert WithDate(u, m) == WithDate(t, m);
    assert WithDate(t, n) == WithDate(u, n);
    assert t[0] in WithDate(u, m);
    assert u[0] in WithDate(t, n);
    NewestFirst(u, t[0]);
    NewestFirst(t, u[0]);
  }

  /** Lists that agree on every date and share their first entry agree on every date after it. */
  lemma TailsAgree(t: seq<Harvested>, u: seq<Harvested>)
    requires |t| > 0 && |u| > 0 && t[0] == u[0]
    requires forall d :: WithDate(t, d) == WithDate(u, d)
    ensures forall d :: WithDate(t[1..], d) == WithDate(u[1..], d)
  {
    forall d
      ensures WithDate(t[1..], d) == WithDate(u[1..], d)
    {
      WithDateCons(t, d);
      WithDateCons(u, d);
      var h: seq<Harvested> := if t[0].parsedDate == d then [t[0]] else [];
      assert (h + WithDate(t[1..], d))[|h|..] == WithDate(t[1..], d);
      assert (h + WithDate(u[1..], d))[|h|..] == WithDate(u[1..], d);
    }
  }

  /**
   * A newest-first arrangement is determined by what it holds of each date,
   * in order: two of them that agree on every date are equal.
   */
  lemma {:induction false} SortedUnique(t: seq<Harvested>, u: seq<Harvested>)
    requires SortedDesc(t) && SortedDesc(u)
    requires forall d :: WithDate(t, d) == WithDate(u, d)
    ensures t == u
    decreases |t|
  {
    if |t| == 0 {
      if |u| > 0 {
        WithDateHead(u);
      }
    } else if |u| == 0 {
      WithDateHead(t);
    } else {
      HeadsAgree(t, u);
      TailsAgree(t, u);
      SortedUnique(t[1..], u[1..]);
      assert t == [t[0]] + t[1..];
      assert u == [u[0]] + u[1..];
    }
  }

  /**
   * The sort is exactly Python's stable descending sort: any newest-first
   * arrangement that keeps each date's entries in harvest order is its result.
   */
  lemma SortCharacterized(s: seq<Harvested>, t: seq<Harvested>)
    requires SortedDesc(t)
    requires forall d :: WithDate(t, d) == WithDate(s, d)
    ensures t == SortByDate(s)
  {
    forall d
      ensures WithDate(t, d) == WithDate(SortByDate(s), d)
    {
      SortStable(s, d);
    }
    SortedUnique(t, SortByDate(s));
  }

  /** The reviews of `s` without their parsed dates. */
  function StripDates(s: seq<Harvested>): (r: seq<Review>)
    ensures |r| == |s|
    ensures forall i :: 0 <= i < |s| ==> r[i] == s[i].review
  {
    seq(|s|, i requires 0 <= i < |s| => s[i].review)
  }

  /** The returned list: the newest `MaxReviews` harvested reviews, newest first, without dates. */
  function Finalize(harvest: seq<Harvested>): (r: seq<Review>)
    ensures |r| == if |harvest| < MaxReviews then |harvest| else MaxReviews
    ensures forall i :: 0 <= i < |r| ==> exists k :: 0 <= k < |harvest| && harvest[k].review == r[i]
  {
    var sorted := SortByDate(harvest);
    var kept := sorted[..if |harvest| < MaxReviews then |harvest| else MaxReviews];
    forall i | 0 <= i < |kept|
      ensures exists k :: 0 <= k < |harvest| && harvest[k] == kept[i]
    {
      assert kept[i] in multiset(sorted);
    }
    StripDates(kept)
  }

  /**
   * What is returned is the newest-first stable arrangement of the harvest
   * cut to `MaxReviews`, with the dates removed; nothing cut is newer than
   * anything returned.
   */
  lemma {:induction false} FinalizeCharacterized(harvest: seq<Harvested>, t: seq<Harvested>)
    requires SortedDesc(t)
    requires forall d :: WithDate(t, d) == WithDate(harvest, d)
    ensures |Finalize(harvest)| <= |t|
    ensures forall i :: 0 <= i < |Finalize(harvest)| ==> Finalize(harvest)[i] == t[i].review
    ensures forall i, j :: 0 <= i < |Finalize(harvest)| <= j < |t| ==> t[i].parsedDate >= t[j].parsedDate
  {
    SortCharacterized(harvest, t);
  }

  /** What the harvester returns. */
  datatype PageResult =
    | Finalized(reviews: seq<Review>)    // the loop completed: sorted, cut and without dates
    | Unfinalized(raw: seq<Harvested>)   // an error escaped the loop: the harvest as it stood

  /** The whole review harvest of one page at time `now`. */
  function ParseReviewsData(script: seq<Snapshot>, now: int): (r: PageResult)
    ensures r.Finalized? ==> |r.reviews| <= MaxReviews
    ensures r.Unfinalized? <==> Harvest(script, ReaderAt(now)).Interrupted?
    ensures r.Unfinalized? ==> r.raw == Harvest(script, ReaderAt(now)).reviews
    ensures r.Finalized? ==> r.reviews == Finalize(Harvest(script, ReaderAt(now)).reviews)
  {
    match Harvest(script, ReaderAt(now))
    case Interrupted(raw) => Unfinalized(raw)
    case Completed(harvest, _, _) => Finalized(Finalize(harvest))
  }

  /** A page whose cards carry no date element yields no reviews at all. */
  lemma NoDatesNoReviews(script: seq<Snapshot>, now: int)
    requires forall k :: 0 <= k < |script| ==> script[k].Rendered?
    requires forall k, i :: 0 <= k < |script| && 0 <= i < |script[k].nodes| ==> script[k].nodes[i].date.None?
    ensures ParseReviewsData(script, now) == Finalized([])
  {
    var read := ReaderAt(now);
    forall k, i | 0 <= k < |script| && 0 <= i < |script[k].nodes|
      ensures !read(script[k].nodes[i]).Appended?
    {
      MissingDateDropped(script[k].nodes[i], now);
    }
    PureStall(script, read);
  }
}

=== FILE: harvest_loop.dfy ===
/**
 * The scroll-and-harvest loop.
 *
 * The page is replaced by a script: the `k`-th scroll cycle sees the `k`-th
 * snapshot of the rendered review cards (after the script ends the last
 * snapshot stays on screen). Each cycle reads the cards from position
 * `|reviews|` on, so the deduplication is by position and is keyed on the
 * number of reviews harvested so far. A cycle that adds nothing counts a
 * stalled scroll attempt; one that adds something resets the count. The loop
 * runs while fewer than `MaxReviews` reviews are held and fewer than
 * `MaxScrollAttempts` stalls have happened in a row.
 */
module HarvestLoop {
  import opened ReviewExtractor

  const MaxReviews: nat := 200
  const MaxScrollAttempts: nat := 80

  /** What one scroll cycle finds: the rendered cards, or a page error that aborts the harvest. */
  datatype Snapshot = Rendered(nodes: seq<Node>) | PageFailed

  /** How the loop ended. `Interrupted` is an error escaping the loop, which keeps what was harvested. */
  datatype Outcome =
    | Completed(reviews: seq<Harvested>, attempts: nat, cycles: nat)
    | Interrupted(reviews: seq<Harvested>)

  /** The snapshot the `k`-th cycle sees. */
  function SnapshotAt(script: seq<Snapshot>, k: nat): (s: Snapshot)
    ensures |script| == 0 ==> s == Rendered([])
    ensures k < |script| ==> s == script[k]
    ensures |script| > 0 && k >= |script| ==> s == script[|script| - 1]
  {
    if |script| == 0 then Rendered([])
    else if k < |script| then script[k]
    else script[|script| - 1]
  }

  /** Where a cycle starts reading: at the harvested count, or past the end. */
  function Start(reviews: seq<Harvested>, nodes: seq<Node>): (i: nat)
    ensures i <= |nodes|
    ensures i == |reviews| || i == |nodes|
    ensures i <= |reviews|
  {
    if |reviews| < |nodes| then |reviews| else |nodes|
  }

  /** One cycle's reading of a rendered snapshot. */
  function Cycle(reviews: seq<Harvested>, nodes: seq<Node>, read: Node -> NodeOutcome): (r: seq<Harvested>)
    ensures reviews <= r
    ensures |r| <= if |reviews| < |nodes| then |nodes| else |reviews|
  {
    reviews + Collect(nodes[Start(reviews, nodes)..], read)
  }

  /** The loop from state (`reviews`, `attempts`), about to run cycle `cycles`. */
  function Run(script: seq<Snapshot>, read: Node -> NodeOutcome, reviews: seq<Harvested>, attempts: nat, cycles: nat): (r: Outcome)
    ensures reviews <= r.reviews
    ensures r.Completed? ==> |r.reviews| >= MaxReviews || r.attempts >= MaxScrollAttempts
    ensures r.Completed? && attempts <= MaxScrollAttempts ==> r.attempts <= MaxScrollAttempts
    ensures r.Completed? ==> r.cycles >= cycles
    decreases MaxReviews - |reviews|, MaxScrollAttempts - attempts
  {
    if |reviews| >= MaxReviews || attempts >= MaxScrollAttempts then Completed(reviews, attempts, cycles)
    else
      match SnapshotAt(script, cycles)
      case PageFailed => Interrupted(reviews)
      case Rendered(nodes) =>
        var next := Cycle(reviews, nodes, read);
        if |next| == |reviews| then Run(script, read, reviews, attempts + 1, cycles + 1)
        else Run(script, read, next, 0, cycles + 1)
  }

  /** The harvest from its start: no reviews, no stalls, first cycle. */
  function Harvest(script: seq<Snapshot>, read: Node -> NodeOutcome): (r: Outcome)
    ensures r.Completed? ==> |r.reviews| >= MaxReviews || r.attempts == MaxScrollAttempts
  {
    Run(script, read, [], 0, 0)
  }

  /**
   * One cycle's inner loop: every card from position `|before|` on is read
   * and each kept review appended; `found` records whether any was.
   */
  method ReadCycle(before: seq<Harvested>, nodes: seq<Node>, read: Node -> NodeOutcome)
    returns (reviews: seq<Harvested>, found: bool)
    ensures reviews == Cycle(before, nodes, read)
    ensures found <==> |reviews| > |before|
  {
    var start := Start(before, nodes);
    reviews := before;
    found := false;
    for i := start to |nodes|
      invariant reviews == before + Collect(nodes[start..i], read)
      invariant found <==> |reviews| > |before|
    {
      CollectSnoc(nodes, start, i, read);
      var o := read(nodes[i]);
      if o.Appended? {
        reviews := reviews + [o.entry];
        found := true;
      }
    }
    assert nodes[start..|nodes|] == nodes[start..];
  }

  /** Reading one more card. */
  lemma CollectSnoc(nodes: seq<Node>, start: nat, i: nat, read: Node -> NodeOutcome)
    requires start <= i < |nodes|
    ensures Collect(nodes[start..i + 1], read)
         == Collect(nodes[start..i], read) + if read(nodes[i]).Appended? then [read(nodes[i]).entry] else []
  {
    assert nodes[start..i + 1] == nodes[start..i] + [nodes[i]];
    CollectConcat(nodes[start..i], [nodes[i]], read);
    CollectOne(nodes[i], read);
  }

  /**
   * The loop as the program runs it: a while loop over cycles and, inside,
   * a for loop over the unread cards that appends every kept review.
   */
  method HarvestReviews(script: seq<Snapshot>, read: Node -> NodeOutcome) returns (outcome: Outcome)
    ensures outcome == Harvest(script, read)
  {
    var reviews: seq<Harvested> := [];
    var attempts: nat := 0;
    var cycles: nat := 0;
    while |reviews| < MaxReviews && attempts < MaxScrollAttempts
      invariant Run(script, read, reviews, attempts, cycles) == Harvest(script, read)
      decreases MaxReviews - |reviews|, MaxScrollAttempts - attempts
    {
      var snapshot := SnapshotAt(script, cycles);
      if snapshot.PageFailed? {
        return Interrupted(reviews);
      }
      var before := reviews;
      var found;
      reviews, found := ReadCycle(before, snapshot.nodes, read);
      RunNext(script, read, before, attempts, cycles, snapshot.nodes, found);
      attempts := if found then 0 else attempts + 1;
      cycles := cycles + 1;
    }
    return Completed(reviews, attempts, cycles);
  }

  /** One cycle of the loop, as `Run` takes it. */
  lemma RunStep(script: seq<Snapshot>, read: Node -> NodeOutcome, reviews: seq<Harvested>, attempts: nat, cycles: nat, nodes: seq<Node>)
    requires |reviews| < MaxReviews && attempts < MaxScrollAttempts
    requires SnapshotAt(script, cycles) == Rendered(nodes)
    ensures |Cycle(reviews, nodes, read)| == |reviews| ==>
      Run(script, read, reviews, attempts, cycles) == Run(script, read, reviews, attempts + 1, cycles + 1)
    ensures |Cycle(reviews, nodes, read)| != |reviews| ==>
      Run(script, read, reviews, attempts, cycles) == Run(script, read, Cycle(reviews, nodes, read), 0, cycles + 1)
  {
  }

  /** One cycle of the loop, with the stall count reset exactly when the cycle found something. */
  lemma RunNext(script: seq<Snapshot>, read: Node -> NodeOutcome, reviews: seq<Harvested>, attempts: nat, cycles: nat, nodes: seq<Node>, found: bool)
    requires |reviews| < MaxReviews && attempts < MaxScrollAttempts
    requires SnapshotAt(script, cycles) == Rendered(nodes)
    requires found <==> |Cycle(reviews, nodes, read)| > |reviews|
    ensures Run(script, read, reviews, attempts, cycles)
         == Run(script, read, Cycle(reviews, nodes, read), if found then 0 else attempts + 1, cycles + 1)
  {
    RunStep(script, read, reviews, attempts, cycles, nodes);
    if !found {
      assert Cycle(reviews, nodes, read) == reviews;
    }
  }

  // ---------------------------------------------------------------------------
  // Stalling and termination

  /**
   * Once every snapshot from cycle `cycles` on has no card past the harvested
   * count, every further cycle stalls: the loop ends with what it holds after
   * exactly the stalls that remain.
   */
  lemma {:induction false} CaughtUpStalls(script: seq<Snapshot>, read: Node -> NodeOutcome, reviews: seq<Harvested>, attempts: nat, cycles: nat)
    requires |reviews| < MaxReviews && attempts <= MaxScrollAttempts
    requires forall k :: cycles <= k ==> SnapshotAt(script, k).Rendered? && |SnapshotAt(script, k).nodes| <= |reviews|
    ensures Run(script, read, reviews, attempts, cycles)
         == Completed(reviews, MaxScrollAttempts, cycles + MaxScrollAttempts - attempts)
    decreases MaxScrollAttempts - attempts
  {
    if attempts < MaxScrollAttempts {
      var nodes := SnapshotAt(script, cycles).nodes;
      assert nodes[Start(reviews, nodes)..] == [];
      CaughtUpStalls(script, read, reviews, attempts + 1, cycles + 1);
    }
  }

  /** No card of a script that never fails or keeps anything is kept, in any cycle. */
  lemma NoneKeptAt(script: seq<Snapshot>, read: Node -> NodeOutcome, k: nat)
    requires forall k :: 0 <= k < |script| ==> script[k].Rendered?
    requires forall k, i :: 0 <= k < |script| && 0 <= i < |script[k].nodes| ==> !read(script[k].nodes[i]).Appended?
    ensures SnapshotAt(script, k).Rendered?
    ensures Cycle([], SnapshotAt(script, k).nodes, read) == []
  {
    var nodes := SnapshotAt(script, k).nodes;
    assert nodes[Start([], nodes)..] == nodes;
    var j := if k < |script| then k else |script| - 1;
    forall i | 0 <= i < |nodes|
      ensures !read(nodes[i]).Appended?
    {
      assert nodes[i] == script[j].nodes[i];
    }
    CollectNone(nodes, read);
  }

  /**
   * When no rendered card is ever kept, and the page never fails, the loop
   * ends with nothing after exactly `MaxScrollAttempts` cycles from a fresh start.
   */
  lemma {:induction false} NothingResolvesStalls(script: seq<Snapshot>, read: Node -> NodeOutcome, attempts: nat, cycles: nat)
    requires attempts <= MaxScrollAttempts
    requires forall k :: 0 <= k < |script| ==> script[k].Rendered?
    requires forall k, i :: 0 <= k < |script| && 0 <= i < |script[k].nodes| ==> !read(script[k].nodes[i]).Appended?
    ensures Run(script, read, [], attempts, cycles) == Completed([], MaxScrollAttempts, cycles + MaxScrollAttempts - attempts)
    decreases MaxScrollAttempts - attempts
  {
    if attempts < MaxScrollAttempts {
      NoneKeptAt(script, read, cycles);
      RunStep(script, read, [], attempts, cycles, SnapshotAt(script, cycles).nodes);
      NothingResolvesStalls(script, read, attempts + 1, cycles + 1);
    }
  }

  /** Pure stall from the start: 80 cycles and an empty harvest. */
  lemma PureStall(script: seq<Snapshot>, read: Node -> NodeOutcome)
    requires forall k :: 0 <= k < |script| ==> script[k].Rendered?
    requires forall k, i :: 0 <= k < |script| && 0 <= i < |script[k].nodes| ==> !read(script[k].nodes[i]).Appended?
    ensures Harvest(script, read) == Completed([], MaxScrollAttempts, MaxScrollAttempts)
  {
    NothingResolvesStalls(script, read, 0, 0);
  }

  // ---------------------------------------------------------------------------
  // Size

  /** The harvest never holds more reviews than the widest snapshot has cards (or than it started with). */
  lemma {:induction false} RunBounded(script: seq<Snapshot>, read: Node -> NodeOutcome, reviews: seq<Harvested>, attempts: nat, cycles: nat, width: nat)
    requires |reviews| <= width
    requires forall k :: 0 <= k < |script| && script[k].Rendered? ==> |script[k].nodes| <= width
    ensures |Run(script, read, reviews, attempts, cycles).reviews| <= width
    decreases MaxReviews - |reviews|, MaxScrollAttempts - attempts
  {
    if |reviews| < MaxReviews && attempts < MaxScrollAttempts {
      match SnapshotAt(script, cycles)
      case PageFailed =>
      case Rendered(nodes) =>
        var next := Cycle(reviews, nodes, read);
        if |next| == |reviews| {
          RunBounded(script, read, reviews, attempts + 1, cycles + 1, width);
        } else {
          RunBounded(script, read, next, 0, cycles + 1, width);
        }
    }
  }

  /**
   * The cap is checked only between cycles: a first snapshot of `n >= 200`
   * cards that are all kept is harvested whole, so the loop ends holding all
   * `n` after one cycle.
   */
  lemma Overshoot(script: seq<Snapshot>, read: Node -> NodeOutcome)
    requires |script| > 0 && script[0].Rendered? && |script[0].nodes| >= MaxReviews
    requires forall i :: 0 <= i < |script[0].nodes| ==> read(script[0].nodes[i]).Appended?
    ensures Harvest(script, read) == Completed(Collect(script[0].nodes, read), 0, 1)
    ensures |Harvest(script, read).reviews| == |script[0].nodes|
  {
    var nodes := script[0].nodes;
    CollectAll(nodes, read);
    assert nodes[Start([], nodes)..] == nodes;
  }

  // ---------------------------------------------------------------------------
  // Positional deduplication

  /** Every snapshot extends the one before it: scrolling only appends cards. */
  predicate Growing(script: seq<Snapshot>) {
    && (forall k :: 0 <= k < |script| ==> script[k].Rendered?)
    && (forall k :: 0 <= k < |script| - 1 ==> script[k].nodes <= script[k + 1].nodes)
  }

  /** Every card of every snapshot is kept. */
  predicate AllKept(script: seq<Snapshot>, read: Node -> NodeOutcome) {
    forall k, i :: 0 <= k < |script| && script[k].Rendered? && 0 <= i < |script[k].nodes| ==> read(script[k].nodes[i]).Appended?
  }

  lemma {:induction false} GrowingPrefix(script: seq<Snapshot>, j: nat, k: nat)
    requires Growing(script) && j <= k
    ensures SnapshotAt(script, j).Rendered? && SnapshotAt(script, k).Rendered?
    ensures SnapshotAt(script, j).nodes <= SnapshotAt(script, k).nodes
    decreases k - j
  {
    if j < k && j < |script| - 1 {
      GrowingPrefix(script, j + 1, k);
    }
  }

  /** A cycle over an extension of the cards already fully harvested reads exactly the new ones. */
  lemma CycleExtends(seen: seq<Node>, nodes: seq<Node>, read: Node -> NodeOutcome)
    requires seen <= nodes
    requires forall i :: 0 <= i < |nodes| ==> read(nodes[i]).Appended?
    ensures Cycle(Collect(seen, read), nodes, read) == Collect(nodes, read)
  {
    CollectAll(seen, read);
    CollectAll(nodes, read);
    assert nodes == seen + nodes[|seen|..];
    CollectConcat(seen, nodes[|seen|..], read);
  }

  /** The loop ended holding one review per card of the last snapshot it read. */
  predicate HoldsLastSnapshot(script: seq<Snapshot>, read: Node -> NodeOutcome, r: Outcome) {
    && r.Completed?
    && r.cycles > 0
    && SnapshotAt(script, r.cycles - 1).Rendered?
    && r.reviews == Collect(SnapshotAt(script, r.cycles - 1).nodes, read)
  }

  lemma KeptAt(script: seq<Snapshot>, read: Node -> NodeOutcome, k: nat)
    requires Growing(script) && AllKept(script, read)
    ensures SnapshotAt(script, k).Rendered?
    ensures forall i :: 0 <= i < |SnapshotAt(script, k).nodes| ==> read(SnapshotAt(script, k).nodes[i]).Appended?
  {
  }

  /**
   * One cycle after a state holding one review per card of the snapshot just
   * read: the next snapshot's cards are read exactly once each, and the stall
   * count moves to `next`.
   */
  lemma DedupStep(script: seq<Snapshot>, read: Node -> NodeOutcome, seen: seq<Node>, attempts: nat, cycles: nat)
    returns (nodes: seq<Node>, next: nat)
    requires Growing(script) && AllKept(script, read)
    requires cycles > 0 && SnapshotAt(script, cycles - 1) == Rendered(seen)
    requires |Collect(seen, read)| < MaxReviews && attempts < MaxScrollAttempts
    ensures SnapshotAt(script, cycles) == Rendered(nodes)
    ensures Run(script, read, Collect(seen, read), attempts, cycles) == Run(script, read, Collect(nodes, read), next, cycles + 1)
    ensures next == 0 ==> |Collect(nodes, read)| > |Collect(seen, read)|
    ensures next != 0 ==> |Collect(nodes, read)| == |Collect(seen, read)| && next == attempts + 1
  {
    GrowingPrefix(script, cycles - 1, cycles);
    KeptAt(script, read, cycles);
    nodes := SnapshotAt(script, cycles).nodes;
    CycleExtends(seen, nodes, read);
    RunStep(script, read, Collect(seen, read), attempts, cycles, nodes);
    if |Collect(nodes, read)| == |Collect(seen, read)| {
      assert Collect(nodes, read) == Collect(seen, read);
      next := attempts + 1;
    } else {
      next := 0;
    }
  }

  /**
   * From a state holding one review per card of the snapshot just read,
   * growing snapshots whose cards are all kept keep it that way to the end.
   */
  lemma {:induction false} RunDedup(script: seq<Snapshot>, read: Node -> NodeOutcome, seen: seq<Node>, attempts: nat, cycles: nat)
    requires Growing(script) && AllKept(script, read)
    requires cycles > 0 && SnapshotAt(script, cycles - 1) == Rendered(seen)
    ensures HoldsLastSnapshot(script, read, Run(script, read, Collect(seen, read), attempts, cycles))
    decreases MaxReviews - |Collect(seen, read)|, MaxScrollAttempts - attempts
  {
    if |Collect(seen, read)| < MaxReviews && attempts < MaxScrollAttempts {
      var nodes, next := DedupStep(script, read, seen, attempts, cycles);
      RunDedup(script, read, nodes, next, cycles + 1);
    }
  }

  /**
   * With growing snapshots whose cards are all kept, the harvest ends
   * holding exactly one review per card of the last snapshot it read, in
   * page order: no card is read twice.
   */
  lemma HarvestDedup(script: seq<Snapshot>, read: Node -> NodeOutcome)
    requires Growing(script) && AllKept(script, read)
    ensures HoldsLastSnapshot(script, read, Harvest(script, read))
  {
    KeptAt(script, read, 0);
    var nodes := SnapshotAt(script, 0).nodes;
    assert nodes[Start([], nodes)..] == nodes;
    assert Cycle([], nodes, read) == Collect(nodes, read);
    RunStep(script, read, [], 0, 0, nodes);
    if |Collect(nodes, read)| == 0 {
      RunDedup(script, read, nodes, 1, 1);
    } else {
      RunDedup(script, read, nodes, 0, 1);
    }
  }

  /**
   * The duplicate the positional deduplication lets through: a first
   * snapshot [u, a] whose card u is not kept gives one review, so the next
   * cycle over [u, a, b] starts at position 1 and reads a again.
   */
  lemma DuplicateQuirk(u: Node, a: Node, b: Node, read: Node -> NodeOutcome)
    requires !read(u).Appended?
    requires read(a).Appended? && read(b).Appended?
    ensures
      var ra := read(a).entry;
      var rb := read(b).entry;
      Harvest([Rendered([u, a]), Rendered([u, a, b])], read)
        == Completed([ra, ra, rb], MaxScrollAttempts, 2 + MaxScrollAttempts)
  {
    var script := [Rendered([u, a]), Rendered([u, a, b])];
    var ra := read(a).entry;
    var rb := read(b).entry;
    CollectOne(u, read);
    CollectOne(a, read);
    CollectOne(b, read);
    assert [u, a] == [u] + [a];
    CollectConcat([u], [a], read);
    assert [u, a][Start([], [u, a])..] == [u, a];
    assert Cycle([], [u, a], read) == [ra];
    RunStep(script, read, [], 0, 0, [u, a]);
    assert [u, a, b][Start([ra], [u, a, b])..] == [a] + [b];
    CollectConcat([a], [b], read);
    assert Cycle([ra], [u, a, b], read) == [ra, ra, rb];
    RunStep(script, read, [ra], 0, 1, [u, a, b]);
    CaughtUpStalls(script, read, [ra, ra, rb], 0, 2);
  }
}

=== FILE: pytext.dfy ===
/**
 * The Python `str` operations the harvester relies on, over `string` (`seq<char>`):
 * substring tests, `split()` and `split(sep)`, `strip()`, digit filtering,
 * `str.replace` of one character, and what `int()` and `float()` accept.
 * Digits are the ASCII digits '0'..'9'.
 */
module PyText {
  import opened Wrappers

  /** `str.isspace()`: the characters `split()` and `strip()` treat as whitespace. */
  predicate IsSpace(c: char) {
    || ('\t' <= c <= '\r')
    || ('\U{1C}' <= c <= '\U{1F}')
    || c == ' ' || c == '\U{85}' || c == '\U{A0}' || c == '\U{1680}'
    || ('\U{2000}' <= c <= '\U{200A}')
    || c == '\U{2028}' || c == '\U{2029}' || c == '\U{202F}' || c == '\U{205F}' || c == '\U{3000}'
  }

  predicate IsDigit(c: char) {
    '0' <= c <= '9'
  }

  predicate AllDigits(s: string) {
    forall i :: 0 <= i < |s| ==> IsDigit(s[i])
  }

  function DigitValue(c: char): (n: nat)
    requires IsDigit(c)
    ensures n < 10
  {
    (c as int) - ('0' as int)
  }

  function DigitChar(n: nat): (c: char)
    requires n < 10
    ensures IsDigit(c) && DigitValue(c) == n
  {
    (('0' as int) + n) as char
  }

  // ---------------------------------------------------------------------------
  // Substring test: Python's `t in s`

  predicate StartsWith(s: string, t: string) {
    |t| <= |s| && s[..|t|] == t
  }

  /** `t` occurs in `s` starting at index `i`. */
  predicate OccursAt(s: string, t: string, i: int) {
    0 <= i && i + |t| <= |s| && s[i..i + |t|] == t
  }

  /** Python's `t in s`. */
  predicate Contains(s: string, t: string)
    decreases |s|
  {
    StartsWith(s, t) || (|s| > 0 && Contains(s[1..], t))
  }

  /** An occurrence at index `i` makes `t in s` true. */
  lemma {:induction false} ContainsAt(s: string, t: string, i: int)
    requires OccursAt(s, t, i)
    ensures Contains(s, t)
    decreases i
  {
    if i == 0 {
      assert s[..|t|] == s[0..|t|];
    } else {
      assert s[1..][i - 1..i - 1 + |t|] == s[i..i + |t|];
      ContainsAt(s[1..], t, i - 1);
    }
  }

  /** `t in s` has a witness occurrence. */
  lemma {:induction false} OccursIfContains(s: string, t: string)
    requires Contains(s, t)
    ensures exists i :: OccursAt(s, t, i)
    decreases |s|
  {
    if StartsWith(s, t) {
      assert s[0..|t|] == s[..|t|];
      assert OccursAt(s, t, 0);
    } else {
      OccursIfContains(s[1..], t);
      var i :| OccursAt(s[1..], t, i);
      assert s[1..][i..i + |t|] == s[i + 1..i + 1 + |t|];
      assert OccursAt(s, t, i + 1);
    }
  }

  /** `Contains` agrees with the positional definition of a substring, in both directions. */
  lemma ContainsIff(s: string, t: string)
    ensures Contains(s, t) <==> exists i :: OccursAt(s, t, i)
  {
    if Contains(s, t) {
      OccursIfContains(s, t);
    }
    if exists i :: OccursAt(s, t, i) {
      var i :| OccursAt(s, t, i);
      ContainsAt(s, t, i);
    }
  }

  // ---------------------------------------------------------------------------
  // `s.split()[0]`: the first whitespace-separated token

  /** Drops leading whitespace. */
  function SkipSpace(s: string): (r: string)
    ensures |r| <= |s| && r == s[|s| - |r|..]
    ensures forall i :: 0 <= i < |s| - |r| ==> IsSpace(s[i])
    ensures |r| > 0 ==> !IsSpace(r[0])
  {
    if |s| > 0 && IsSpace(s[0]) then SkipSpace(s[1..]) else s
  }

  /** The longest whitespace-free prefix. */
  function TakeWord(s: string): (w: string)
    ensures |w| <= |s| && w == s[..|w|]
    ensures forall i :: 0 <= i < |w| ==> !IsSpace(w[i])
    ensures |w| < |s| ==> IsSpace(s[|w|])
  {
    if |s| > 0 && !IsSpace(s[0]) then [s[0]] + TakeWord(s[1..]) else []
  }

  /**
   * `tok` is the first field of `s.split()`, found at index `k`: only whitespace
   * before it, no whitespace inside it, and whitespace or the end right after it.
   */
  predicate FirstTokenAt(s: string, tok: string, k: int) {
    && 0 <= k && k + |tok| <= |s| && |tok| > 0
    && (forall i :: 0 <= i < k ==> IsSpace(s[i]))
    && s[k..k + |tok|] == tok
    && (forall i :: 0 <= i < |tok| ==> !IsSpace(tok[i]))
    && (k + |tok| == |s| || IsSpace(s[k + |tok|]))
  }

  /** The first word after the leading whitespace sits at the end of that whitespace. */
  lemma FirstWordAt(s: string)
    requires |SkipSpace(s)| > 0
    ensures FirstTokenAt(s, TakeWord(SkipSpace(s)), |s| - |SkipSpace(s)|)
  {
    var t := SkipSpace(s);
    WordAfterSpace(s, |s| - |t|, TakeWord(t));
  }

  /** A maximal whitespace-free word right after a run of whitespace is the first token. */
  lemma WordAfterSpace(s: string, k: int, w: string)
    requires 0 <= k < |s| && (forall i :: 0 <= i < k ==> IsSpace(s[i]))
    requires !IsSpace(s[k])
    requires |w| <= |s| - k && w == s[k..][..|w|]
    requires forall i :: 0 <= i < |w| ==> !IsSpace(w[i])
    requires |w| < |s| - k ==> IsSpace(s[k..][|w|])
    ensures FirstTokenAt(s, w, k)
  {
    assert s[k..][0] == s[k];
    assert s[k..k + |w|] == w;
  }

  /** `s.split()[0]`, or None where Python raises IndexError (`s` is blank). */
  function FirstToken(s: string): (r: Option<string>)
    ensures r.None? <==> forall i :: 0 <= i < |s| ==> IsSpace(s[i])
    ensures r.Some? ==> FirstTokenAt(s, r.value, |s| - |SkipSpace(s)|)
  {
    var t := SkipSpace(s);
    if |t| == 0 then None
    else
      FirstWordAt(s);
      assert !IsSpace(s[|s| - |t|]);
      Some(TakeWord(t))
  }

  /** Leading whitespace ends at the first non-space character. */
  lemma {:induction false} SkipSpaceAt(s: string, k: int)
    requires 0 <= k < |s| && !IsSpace(s[k])
    requires forall i :: 0 <= i < k ==> IsSpace(s[i])
    ensures SkipSpace(s) == s[k..]
    decreases k
  {
    if k > 0 {
      assert IsSpace(s[0]);
      assert s[1..][k - 1] == s[k];
      SkipSpaceAt(s[1..], k - 1);
      assert s[1..][k - 1..] == s[k..];
    }
  }

  /** The word taken is the maximal whitespace-free prefix. */
  lemma {:induction false} TakeWordAt(t: string, w: string)
    requires |w| <= |t| && t[..|w|] == w
    requires forall i :: 0 <= i < |w| ==> !IsSpace(w[i])
    requires |w| == |t| || IsSpace(t[|w|])
    ensures TakeWord(t) == w
    decreases |w|
  {
    if |w| > 0 {
      assert t[0] == w[0];
      assert t[1..][..|w| - 1] == w[1..];
      TakeWordAt(t[1..], w[1..]);
      assert [w[0]] + w[1..] == w;
    }
  }

  /** A token found by position is the first token. */
  lemma FirstTokenUnique(s: string, tok: string, k: int)
    requires FirstTokenAt(s, tok, k)
    ensures FirstToken(s) == Some(tok)
  {
    assert s[k] == tok[0];
    SkipSpaceAt(s, k);
    var t := s[k..];
    assert t[..|tok|] == tok;
    assert |tok| < |t| ==> t[|tok|] == s[k + |tok|];
    TakeWordAt(t, tok);
  }

  // ---------------------------------------------------------------------------
  // `s.split(sep)` for a one-character separator, and its inverse `sep.join(parts)`

  function Split(s: string, sep: char): (parts: seq<string>)
    ensures |parts| >= 1
    ensures forall i :: 0 <= i < |parts| ==> sep !in parts[i]
    decreases |s|
  {
    if |s| == 0 then [""]
    else
      var rest := Split(s[1..], sep);
      if s[0] == sep then [""] + rest
      else [[s[0]] + rest[0]] + rest[1..]
  }

  function Join(parts: seq<string>, sep: char): string
    requires |parts| >= 1
  {
    if |parts| == 1 then parts[0] else parts[0] + [sep] + Join(parts[1..], sep)
  }

  /** Joining the fields of a split gives back the original text. */
  lemma {:induction false} JoinSplit(s: string, sep: char)
    ensures Join(Split(s, sep), sep) == s
    decreases |s|
  {
    if |s| > 0 {
      JoinSplit(s[1..], sep);
      var rest := Split(s[1..], sep);
      if s[0] == sep {
        assert Split(s, sep)[1..] == rest;
      } else {
        var parts := Split(s, sep);
        assert parts[1..] == rest[1..];
        if |rest| > 1 {
          assert rest == [rest[0]] + rest[1..];
          assert Join(rest, sep) == rest[0] + [sep] + Join(rest[1..], sep);
        }
      }
    }
  }

  /** Text without the separator is a single field. */
  lemma {:induction false} SplitNoSep(s: string, sep: char)
    requires sep !in s
    ensures Split(s, sep) == [s]
    decreases |s|
  {
    if |s| > 0 {
      SplitNoSep(s[1..], sep);
      assert [s[0]] + s[1..] == s;
    }
  }

  /** A separator-free prefix followed by the separator is the first field. */
  lemma {:induction false} SplitPrefix(a: string, sep: char, b: string)
    requires sep !in a
    ensures Split(a + [sep] + b, sep) == [a] + Split(b, sep)
    decreases |a|
  {
    var s := a + [sep] + b;
    if |a| == 0 {
      assert s[1..] == b;
    } else {
      assert s[1..] == a[1..] + [sep] + b;
      SplitPrefix(a[1..], sep, b);
      assert [a[0]] + a[1..] == a;
    }
  }

  /** Splitting the join of separator-free fields gives the fields back. */
  lemma {:induction false} SplitJoin(parts: seq<string>, sep: char)
    requires |parts| >= 1
    requires forall i :: 0 <= i < |parts| ==> sep !in parts[i]
    ensures Split(Join(parts, sep), sep) == parts
    decreases |parts|
  {
    if |parts| == 1 {
      SplitNoSep(parts[0], sep);
    } else {
      SplitJoin(parts[1..], sep);
      SplitPrefix(parts[0], sep, Join(parts[1..], sep));
      assert [parts[0]] + parts[1..] == parts;
    }
  }

  /** Index of the first occurrence of `c`, or `|s|` when there is none. */
  function IndexOf(s: string, c: char): (i: nat)
    ensures i <= |s| && c !in s[..i]
    ensures i < |s| <==> c in s
    ensures i < |s| ==> s[i] == c
  {
    if |s| == 0 then 0
    else if s[0] == c then 0
    else
      var j := IndexOf(s[1..], c);
      assert s[..j + 1] == [s[0]] + s[1..][..j];
      1 + j
  }

  /** Splitting at the first occurrence of the separator. */
  lemma SplitAtFirst(s: string, sep: char, i: int)
    requires 0 <= i < |s| && s[i] == sep && sep !in s[..i]
    ensures Split(s, sep) == [s[..i]] + Split(s[i + 1..], sep)
  {
    assert s == s[..i] + [sep] + s[i + 1..];
    SplitPrefix(s[..i], sep, s[i + 1..]);
  }

  /** `IndexOf` is the only index with no occurrence before it and an occurrence (or the end) at it. */
  lemma IndexOfAt(s: string, c: char, k: int)
    requires 0 <= k <= |s| && c !in s[..k]
    requires k == |s| || s[k] == c
    ensures IndexOf(s, c) == k
  {
  }

  /** The first field of a split runs up to the first separator, or is the whole text. */
  lemma FirstField(s: string, sep: char)
    ensures Split(s, sep)[0] == s[..IndexOf(s, sep)]
  {
    if sep in s {
      SplitAtFirst(s, sep, IndexOf(s, sep));
    } else {
      SplitNoSep(s, sep);
      assert s[..|s|] == s;
    }
  }

  /** There is a second field exactly when the separator occurs. */
  lemma SplitHasSecond(s: string, sep: char)
    ensures |Split(s, sep)| > 1 <==> sep in s
  {
    if sep in s {
      SplitAtFirst(s, sep, IndexOf(s, sep));
    } else {
      SplitNoSep(s, sep);
    }
  }

  // ---------------------------------------------------------------------------
  // `''.join(filter(str.isdigit, s))` and `int()` of a digit string

  function DigitsOf(s: string): (ds: string)
    ensures |ds| <= |s| && AllDigits(ds)
  {
    if |s| == 0 then []
    else if IsDigit(s[0]) then [s[0]] + DigitsOf(s[1..])
    else DigitsOf(s[1..])
  }

  /** The filter keeps something exactly when the text holds a digit. */
  lemma {:induction false} DigitsPresent(s: string)
    ensures |DigitsOf(s)| > 0 <==> exists i :: 0 <= i < |s| && IsDigit(s[i])
    decreases |s|
  {
    if |s| > 0 && !IsDigit(s[0]) {
      DigitsPresent(s[1..]);
      if exists i :: 0 <= i < |s| && IsDigit(s[i]) {
        var i :| 0 <= i < |s| && IsDigit(s[i]);
        assert s[1..][i - 1] == s[i];
      }
      if exists i :: 0 <= i < |s| - 1 && IsDigit(s[1..][i]) {
        var i :| 0 <= i < |s| - 1 && IsDigit(s[1..][i]);
        assert s[i + 1] == s[1..][i];
      }
    }
  }

  /** Filtering digits out of a digit string changes nothing. */
  lemma {:induction false} DigitsOfDigits(s: string)
    requires AllDigits(s)
    ensures DigitsOf(s) == s
  {
    if |s| > 0 {
      DigitsOfDigits(s[1..]);
      assert [s[0]] + s[1..] == s;
    }
  }

  /** Filtering digits distributes over concatenation. */
  lemma {:induction false} DigitsOfConcat(a: string, b: string)
    ensures DigitsOf(a + b) == DigitsOf(a) + DigitsOf(b)
    decreases |a|
  {
    if |a| > 0 {
      assert (a + b)[1..] == a[1..] + b;
      DigitsOfConcat(a[1..], b);
    } else {
      assert a + b == b;
    }
  }

  function Pow10(k: nat): (p: nat)
    ensures p >= 1
  {
    if k == 0 then 1 else 10 * Pow10(k - 1)
  }

  /** The value of a decimal digit string (leading zeros allowed, as `int()` allows them). */
  function DecimalValue(ds: string): (n: nat)
    requires AllDigits(ds)
    ensures n < Pow10(|ds|)
  {
    if |ds| == 0 then 0 else DecimalValue(ds[..|ds| - 1]) * 10 + DigitValue(ds[|ds| - 1])
  }

  /** `str(n)` for a natural number: no sign, no leading zeros. */
  function ShowNat(n: nat): (s: string)
    ensures |s| > 0 && AllDigits(s)
    ensures |s| > 1 ==> s[0] != '0'
  {
    if n < 10 then [DigitChar(n)] else ShowNat(n / 10) + [DigitChar(n % 10)]
  }

  /** Reading back the decimal text of `n` gives `n`. */
  lemma {:induction false} DecimalValueShowNat(n: nat)
    ensures DecimalValue(ShowNat(n)) == n
  {
    if n >= 10 {
      DecimalValueShowNat(n / 10);
      var s := ShowNat(n);
      assert s[..|s| - 1] == ShowNat(n / 10);
    }
  }

  // ---------------------------------------------------------------------------
  // Python's `int()` on a whitespace-free string (base 10)

  /** Digits separated by single underscores, as `int()` and `float()` accept them. */
  predicate IsDigitRun(s: string) {
    && |s| > 0 && IsDigit(s[0]) && IsDigit(s[|s| - 1])
    && (forall i :: 0 <= i < |s| ==> IsDigit(s[i]) || s[i] == '_')
    && (forall i :: 0 <= i < |s| - 1 ==> s[i] == '_' ==> s[i + 1] != '_')
  }

  function DropUnderscores(s: string): (r: string)
    requires forall i :: 0 <= i < |s| ==> IsDigit(s[i]) || s[i] == '_'
    ensures AllDigits(r) && |r| <= |s|
  {
    if |s| == 0 then []
    else if s[0] == '_' then DropUnderscores(s[1..])
    else [s[0]] + DropUnderscores(s[1..])
  }

  function RunValue(s: string): nat
    requires IsDigitRun(s)
  {
    DecimalValue(DropUnderscores(s))
  }

  /** `int(tok)` for a token without whitespace, or None where Python raises ValueError. */
  function ParseInt(tok: string): (r: Option<int>)
  {
    if |tok| > 0 && (tok[0] == '+' || tok[0] == '-') then
      var body := tok[1..];
      if IsDigitRun(body) then
        assert IsDigit(tok[1]);
        var v: int := RunValue(body);
        Some(if tok[0] == '-' then -v else v)
      else None
    else if IsDigitRun(tok) then Some(RunValue(tok))
    else None
  }

  /** `str(n)` for any integer. */
  function ShowInt(n: int): string {
    if n < 0 then "-" + ShowNat(-n) else ShowNat(n)
  }

  /** A nonempty digit string is a run with nothing to drop. */
  lemma {:induction false} DigitsAreRun(ds: string)
    requires |ds| > 0 && AllDigits(ds)
    ensures IsDigitRun(ds) && DropUnderscores(ds) == ds
  {
    if |ds| > 1 {
      DigitsAreRun(ds[1..]);
      assert [ds[0]] + ds[1..] == ds;
    }
  }

  /** `int()` of a digit string is its decimal value, and raises on the empty string. */
  lemma ParseIntDigits(ds: string)
    requires AllDigits(ds)
    ensures ParseInt(ds) == if |ds| == 0 then None else Some(DecimalValue(ds))
  {
    if |ds| > 0 {
      DigitsAreRun(ds);
    }
  }

  /** `int()` accepts only text holding a digit and no whitespace. */
  lemma ParseIntAccepts(tok: string)
    requires ParseInt(tok).Some?
    ensures exists i :: 0 <= i < |tok| && IsDigit(tok[i])
    ensures forall i :: 0 <= i < |tok| ==> !IsSpace(tok[i])
  {
    if |tok| > 0 && (tok[0] == '+' || tok[0] == '-') {
      assert IsDigit(tok[1..][0]);
    } else {
      assert IsDigit(tok[0]);
    }
  }

  /** `int(str(n)) == n` for every natural number. */
  lemma ParseIntShowNat(n: nat)
    ensures ParseInt(ShowNat(n)) == Some(n)
  {
    var s := ShowNat(n);
    assert IsDigit(s[0]);
    DigitsAreRun(s);
    DecimalValueShowNat(n);
  }

  /** `int("-" + str(n)) == -n`. */
  lemma ParseIntNegated(n: nat)
    ensures ParseInt("-" + ShowNat(n)) == Some(-(n as int))
  {
    var s := "-" + ShowNat(n);
    var body := ShowNat(n);
    assert s[1..] == body;
    DigitsAreRun(body);
    DecimalValueShowNat(n);
    assert RunValue(body) == n;
  }

  /** `int(str(n)) == n` for every integer. */
  lemma ParseIntShowInt(n: int)
    ensures ParseInt(ShowInt(n)) == Some(n)
  {
    if n < 0 {
      ParseIntNegated(-n);
    } else {
      ParseIntShowNat(n);
    }
  }

  // ---------------------------------------------------------------------------
  // `s.replace(pat, rep)` for single characters, `strip()`, and `float()` acceptance

  function ReplaceChar(s: string, pat: char, rep: char): (r: string)
    ensures |r| == |s|
    ensures forall i :: 0 <= i < |s| ==> r[i] == (if s[i] == pat then rep else s[i])
  {
    if |s| == 0 then [] else [if s[0] == pat then rep else s[0]] + ReplaceChar(s[1..], pat, rep)
  }

  /** Drops trailing whitespace. */
  function DropTrailingSpace(s: string): (r: string)
    ensures |r| <= |s| && r == s[..|r|]
    ensures forall i :: |r| <= i < |s| ==> IsSpace(s[i])
    ensures |r| > 0 ==> !IsSpace(r[|r| - 1])
  {
    if |s| > 0 && IsSpace(s[|s| - 1]) then DropTrailingSpace(s[..|s| - 1]) else s
  }

  /** `s.strip()`. */
  function Strip(s: string): string {
    DropTrailingSpace(SkipSpace(s))
  }

  /** Text that neither starts nor ends with whitespace is its own `strip()`. */
  lemma StripUntrimmed(s: string)
    requires |s| > 0 && !IsSpace(s[0]) && !IsSpace(s[|s| - 1])
    ensures Strip(s) == s
  {
    assert SkipSpace(s) == s;
  }

  function LowerAscii(s: string): (r: string)
    ensures |r| == |s|
  {
    if |s| == 0 then []
    else [if 'A' <= s[0] <= 'Z' then (s[0] as int + 32) as char else s[0]] + LowerAscii(s[1..])
  }

  /** A digit run or nothing. */
  predicate OptDigitRun(s: string) {
    |s| == 0 || IsDigitRun(s)
  }

  /** `[digitpart] "." digitpart | digitpart ["."]` of Python's float grammar. */
  predicate IsFloatMantissa(p: string) {
    var parts := Split(p, '.');
    || (|parts| == 1 && IsDigitRun(p))
    || (|parts| == 2 && OptDigitRun(parts[0]) && OptDigitRun(parts[1])
        && (|parts[0]| > 0 || |parts[1]| > 0))
  }

  /** `("e" | "E") [sign] digitpart`, without the leading letter. */
  predicate IsExponentBody(x: string) {
    if |x| > 0 && (x[0] == '+' || x[0] == '-') then IsDigitRun(x[1..]) else IsDigitRun(x)
  }

  /** Index of the first 'e' or 'E', or `|u|` when there is none. */
  function ExponentIndex(u: string): (e: nat)
    ensures e <= |u|
    ensures forall i :: 0 <= i < e ==> u[i] != 'e' && u[i] != 'E'
    ensures e < |u| ==> u[e] == 'e' || u[e] == 'E'
  {
    if |u| == 0 || u[0] == 'e' || u[0] == 'E' then 0 else 1 + ExponentIndex(u[1..])
  }

  /** Text without an exponent letter has its exponent index at the end. */
  lemma NoExponent(u: string)
    requires forall i :: 0 <= i < |u| ==> u[i] != 'e' && u[i] != 'E'
    ensures ExponentIndex(u) == |u|
  {
  }

  predicate IsUnsignedFloat(u: string) {
    || LowerAscii(u) in {"inf", "infinity", "nan"}
    || (var e := ExponentIndex(u);
        IsFloatMantissa(u[..e]) && (e == |u| || IsExponentBody(u[e + 1..])))
  }

  /** The strings Python's `float()` converts without raising ValueError. */
  predicate IsFloatText(s: string) {
    var t := Strip(s);
    if |t| > 0 && (t[0] == '+' || t[0] == '-') then IsUnsignedFloat(t[1..]) else IsUnsignedFloat(t)
  }
}

=== FILE: review_extractor.dfy ===
/**
 * Reading one rendered review card into a review record, and reading every
 * card of one scroll cycle.
 *
 * The page is abstracted away: each DOM read of a card (the date element, the
 * author element, the rating element's aria-label, the text and the owner's
 * response) is present or absent. A card is kept only when its date text
 * resolves to a timestamp; an error raised while reading one card skips that
 * card and nothing else.
 */
module ReviewExtractor {
  import opened Wrappers
  import opened PyText
  import opened DateNormalizer

  /** Text used when a card has no date element; it never resolves. */
  const NoDateText: string := "Нет даты"
  /** Author used when a card has no author element. */
  const NoAuthorText: string := "Нет имени"
  /** Review text used when a card has no text element. */
  const NoReviewText: string := "Нет текста"

  /**
   * One rendered review card. `ratingLabel` is the aria-label of the rating
   * element; an absent element and an absent label are both `None`.
   */
  datatype Node = Node(
    date: Option<string>,
    author: Option<string>,
    ratingLabel: Option<string>,
    text: Option<string>,
    response: Option<string>)

  /** A review as the harvester returns it. */
  datatype Review = Review(author: string, date: string, rating: int, text: string, responseText: string)

  /** A review while it is being harvested, with the timestamp its date text resolved to. */
  datatype Harvested = Harvested(review: Review, parsedDate: int)

  /** What reading one card does to the harvest. */
  datatype NodeOutcome =
    | Appended(entry: Harvested)  // the date resolved and every field was read
    | Dropped                     // the date text did not resolve
    | Failed                      // an error was raised and caught for this card

  /**
   * The rating: the integer of the label's first whitespace-separated token,
   * 0 when there is no label or it is empty, `None` where Python raises
   * (a blank label has no first token; a token that is not an integer).
   */
  function ReadRating(aria: Option<string>): (r: Option<int>)
    ensures aria.None? ==> r == Some(0)
    ensures aria == Some("") ==> r == Some(0)
    ensures aria.Some? && |aria.value| > 0 && (forall i :: 0 <= i < |aria.value| ==> IsSpace(aria.value[i]))
            ==> r.None?
    ensures aria.Some? && FirstToken(aria.value).Some? ==> r == ParseInt(FirstToken(aria.value).value)
  {
    match aria
    case None => Some(0)
    case Some(l) =>
      if |l| == 0 then Some(0)
      else
        match FirstToken(l)
        case None => None
        case Some(tok) => ParseInt(tok)
  }

  /** A label "K <words>" gives rating K, whatever the integer K is: nothing clamps it to 0..5. */
  lemma ReadRatingShown(k: int, rest: string)
    requires |rest| > 0 && IsSpace(rest[0])
    ensures ReadRating(Some(ShowInt(k) + rest)) == Some(k)
  {
    var l := ShowInt(k) + rest;
    var tok := ShowInt(k);
    assert l[0..|tok|] == tok;
    assert l[|tok|] == rest[0];
    assert forall i :: 0 <= i < |tok| ==> !IsSpace(tok[i]);
    FirstTokenUnique(l, tok, 0);
    ParseIntShowInt(k);
  }

  /** The date text a card contributes: its date element's text or the placeholder. */
  function DateText(node: Node): (t: string)
    ensures node.date.Some? ==> t == node.date.value
    ensures node.date.None? ==> t == NoDateText
  {
    node.date.GetOr(NoDateText)
  }

  /**
   * Reading one card. The date is parsed first; the other fields are read
   * only when it resolved, with their placeholders when absent.
   */
  function ExtractNode(node: Node, now: int): (r: NodeOutcome)
    ensures r.Dropped? <==> ParseDate(DateText(node), now).Unresolved?
    ensures r.Appended? <==> ParseDate(DateText(node), now).Resolved? && ReadRating(node.ratingLabel).Some?
    ensures r.Appended? ==>
      && r.entry.parsedDate == ParseDate(DateText(node), now).at
      && r.entry.review.date == DateText(node)
      && r.entry.review.rating == ReadRating(node.ratingLabel).value
      && r.entry.review.author == (if node.author.Some? then node.author.value else NoAuthorText)
      && r.entry.review.text == (if node.text.Some? then node.text.value else NoReviewText)
      && r.entry.review.responseText == (if node.response.Some? then node.response.value else "")
  {
    var dateText := DateText(node);
    match ParseDate(dateText, now)
    case Unresolved => Dropped
    case Raised => Failed
    case Resolved(at) =>
      match ReadRating(node.ratingLabel)
      case None => Failed
      case Some(rating) =>
        Appended(Harvested(
          Review(node.author.GetOr(NoAuthorText), dateText, rating,
                 node.text.GetOr(NoReviewText), node.response.GetOr("")),
          at))
  }

  /** A card without a date element is never kept, whatever else it holds. */
  lemma MissingDateDropped(node: Node, now: int)
    requires node.date.None?
    ensures ExtractNode(node, now) == Dropped
  {
    PlaceholderUnresolved(NoDateText, now);
  }

  /** A card whose date resolved but whose rating label is blank is lost to an error. */
  lemma BlankRatingFails(node: Node, now: int)
    requires ParseDate(DateText(node), now).Resolved?
    requires node.ratingLabel.Some? && |node.ratingLabel.value| > 0
    requires forall i :: 0 <= i < |node.ratingLabel.value| ==> IsSpace(node.ratingLabel.value[i])
    ensures ExtractNode(node, now) == Failed
  {
  }

  /** A card whose date resolved but whose rating label does not start with an integer is lost to an error. */
  lemma UnparsedRatingFails(node: Node, now: int)
    requires node.ratingLabel.Some? && FirstToken(node.ratingLabel.value).Some?
    requires ParseInt(FirstToken(node.ratingLabel.value).value).None?
    ensures ParseDate(DateText(node), now).Resolved? ==> ExtractNode(node, now) == Failed
  {
  }

  /** A word where the number should be, as in "four stars", makes `int()` raise. */
  lemma WordRatingFails(node: Node, now: int)
    requires ParseDate(DateText(node), now).Resolved?
    requires node.ratingLabel == Some("four stars")
    ensures ExtractNode(node, now) == Failed
  {
    WordLabelUnread("four stars", "four");
  }

  lemma WordLabelUnread(l: string, w: string)
    requires l == "four stars" && w == "four"
    ensures ReadRating(Some(l)).None?
  {
    assert l[0..4] == w;
    assert l[4] == ' ';
    FirstTokenUnique(l, w, 0);
    assert !IsDigit(w[0]);
  }

  /** The card reader the harvester uses for one run, at the time `now`. */
  function ReaderAt(now: int): (read: Node -> NodeOutcome)
    ensures forall node :: read(node) == ExtractNode(node, now)
  {
    node => ExtractNode(node, now)
  }

  /**
   * The reviews appended while reading `nodes` in order with `read`. Each
   * card's outcome depends on that card alone, which is what makes one
   * card's error harmless to the others.
   */
  function Collect(nodes: seq<Node>, read: Node -> NodeOutcome): (r: seq<Harvested>)
    ensures |r| <= |nodes|
    ensures forall e :: e in r ==> exists i :: 0 <= i < |nodes| && read(nodes[i]) == Appended(e)
  {
    if |nodes| == 0 then []
    else
      var rest := Collect(nodes[1..], read);
      assert forall e :: e in rest ==> exists i :: 0 <= i < |nodes| - 1 && read(nodes[1..][i]) == Appended(e);
      match read(nodes[0])
      case Appended(e) => [e] + rest
      case _ => rest
  }

  lemma CollectOne(node: Node, read: Node -> NodeOutcome)
    ensures Collect([node], read) == if read(node).Appended? then [read(node).entry] else []
  {
    assert [node][1..] == [];
  }

  /** Reading two runs of cards one after the other. */
  lemma {:induction false} CollectConcat(a: seq<Node>, b: seq<Node>, read: Node -> NodeOutcome)
    ensures Collect(a + b, read) == Collect(a, read) + Collect(b, read)
    decreases |a|
  {
    if |a| == 0 {
      assert a + b == b;
    } else {
      assert (a + b)[1..] == a[1..] + b;
      CollectConcat(a[1..], b, read);
    }
  }

  /** A card that is dropped or fails is simply skipped: the cards after it are still read. */
  lemma NodeIsolation(a: seq<Node>, bad: Node, b: seq<Node>, read: Node -> NodeOutcome)
    requires !read(bad).Appended?
    ensures Collect(a + [bad] + b, read) == Collect(a, read) + Collect(b, read)
  {
    CollectConcat(a + [bad], b, read);
    CollectConcat(a, [bad], read);
  }

  /** Cards of which none is kept add nothing. */
  lemma {:induction false} CollectNone(nodes: seq<Node>, read: Node -> NodeOutcome)
    requires forall i :: 0 <= i < |nodes| ==> !read(nodes[i]).Appended?
    ensures Collect(nodes, read) == []
    decreases |nodes|
  {
    if |nodes| > 0 {
      CollectNone(nodes[1..], read);
    }
  }

  /** When every card is kept, the harvest is the cards' reviews, one per card, in page order. */
  lemma {:induction false} CollectAll(nodes: seq<Node>, read: Node -> NodeOutcome)
    requires forall i :: 0 <= i < |nodes| ==> read(nodes[i]).Appended?
    ensures |Collect(nodes, read)| == |nodes|
    ensures forall i :: 0 <= i < |nodes| ==> Collect(nodes, read)[i] == read(nodes[i]).entry
    decreases |nodes|
  {
    if |nodes| > 0 {
      CollectAll(nodes[1..], read);
    }
  }
}

=== FILE: wrappers.dfy ===
/** The optional-value datatype shared by every module of the model. */
module Wrappers {

  /** A value that may be absent: Python's `None` or a DOM lookup that found nothing. */
  datatype Option<+T> = None | Some(value: T) {

    /** The held value, or `default` when there is none (Python's `x if x else default`). */
    function GetOr(default: T): (r: T)
      ensures Some? ==> r == value
      ensures None? ==> r == default
    {
      match this
      case Some(v) => v
      case None => default
    }
  }
}
